=== FILE: README.md ===
# Excel levels to Pine Script, modelled in Dafny

The service takes an uploaded spreadsheet of trading levels and returns a
Pine Script indicator. Each data row holds:

- a ticker (`Тикер`);
- up to five price levels: `Цель 1`, `Цель 2`, `Стоп`, `Отмена` and `Вход`.

The script starts with a fixed header, which declares the five levels as 0.
Then comes one `if ticker == "…"` block per row that names a ticker; the
block reassigns all five levels. A fixed footer plots every positive level.

This project models the logic of that transformation in `index.js`. It
covers three parts:

- the level normaliser `parseLevel`;
- the ticker alias `mapExcelTickerToPine`;
- the loops of the upload handler, which skip the `Легенда` sheet and rows
  without a ticker and concatenate the blocks.

It proves what these parts promise.

Modules:

- `Wrappers`: `Option`.
- `JsText`: the JavaScript string operations the normaliser uses:
  - `trim`, with the ECMA-262 white-space set;
  - `split('/')[0]`;
  - `replace(',', '.')`, which replaces only the first comma.
- `Numbers`: JavaScript numbers (finite, NaN, ±Infinity), truthiness, and
  `parseFloat`.
  - The scan for the longest StrDecimalLiteral prefix follows section
    7.1.4.1 of ECMA-262 exactly.
  - Three things are parameters (`Numerics`): rounding the literal found to
    a double, `Number.prototype.toString`, and `String` of a member that
    every object inherits from `Object.prototype`.
- `Helpers`: the cell value, `parseLevel` (as `Preprocess` + `ParseLevel`),
  and `mapExcelTickerToPine`, both as written and as the authors meant it
  (see the finding below).
- `Seqs`: generic `filter`/`map`/`forEach` over sequences, used by the
  handler's loops.
- `Emitter`: the workbook, rows, entries, the block text, the whole script,
  and the handler's loops as a method.
- `BlockDecode`: a reader for the generated blocks. It proves that the text
  between the header and the footer reads back as exactly the workbook's
  entries, in order.
- `PineEval`: what the generated script does on a chart, when it compiles.
  The last block for the chart's ticker decides the levels, and only
  positive levels are plotted. The script compiles only when every ticker
  stands for itself inside a Pine string literal, that is, holds no `"`,
  no `\` and no line break. It also takes Pine to read each level's number
  text back as the same value.
- `Scenarios`: a worked workbook, computed through to its script.

Two places where the code and a plain-words reading of it differ:

- Only the first comma of a cell becomes a decimal point.
  `String.prototype.replace` with a string pattern replaces one occurrence,
  so `1,234,5` reads as 1.234. The model follows the code.
- The alias table is an object literal, so the lookup also finds the
  members every object inherits from `Object.prototype` (see Findings).
  The emitter follows the code: `Emitter.TickerOf`, and through it
  `Emitter.Generate`, `Emitter.GenerateScript`, the `BlockDecode` lemmas
  and `PineEval`, goes through `Helpers.MapTickerAsWritten` and
  `Helpers.TickerText`. `Helpers.MapTicker` is the lookup the authors
  meant. `Helpers.TickerText` proves that the two agree on every ticker
  that does not name such a member.

## Model

| member | source | states |
|---|---|---|
| Helpers.ParseLevel | index.js:10-21 | Total on every cell, and the result is a real, so always finite. Undefined, null, booleans and other objects give 0. A finite number gives itself; NaN and ±Infinity give 0. A text whose trimmed form is a placeholder gives 0. |
| Helpers.Preprocess | index.js:13-16 | No parse happens (None) exactly when the trimmed text is `""`, `—` or `--`. Otherwise the text handed to `parseFloat` holds no `/`, is no longer than the trimmed text, starts and ends with a non-blank, and is the trimmed text itself when the cell has no slash and no comma. |
| Helpers.Normalize | index.js:15-16 | The cut-and-replace step keeps no `/` and never lengthens the text. It keeps the ends non-blank, and leaves text without a slash or comma alone. |
| Helpers.PlaceholderIsNaN | index.js:14 | `parseFloat` finds no number in any placeholder, so the early return and the parse agree on 0. |
| Helpers.LevelWithoutSlash | index.js:13-17 | A text cell without a slash reads as `parseFloat` of its trimmed text with the first comma made a point, or 0 when that is not finite. |
| Helpers.SlashCut | index.js:15 | A cell `a/b` gives the level of the cell `a`, whatever `b` is. This holds also when `a` is blank or a placeholder. |
| Helpers.CommaIsDecimalPoint | index.js:16 | With a single comma and no slash, `a,b` and `a.b` give the same level. |
| Helpers.SecondCommaEndsNumber | index.js:16 | Only the first comma is replaced: `a,b,z` gives the level of `a.b`, because the second comma ends the number. |
| Helpers.TrailingBlanksIgnored | index.js:16 | White space after a number does not change what `parseFloat` reads. |
| Numbers.ScanLiteralIsLongest | index.js:16 | The prefix the scanner takes is a StrDecimalLiteral, and no longer prefix is one. When it takes none, no prefix is one. |
| Numbers.ParseFloatIgnoresTail | index.js:16 | After a head that is not blank, `parseFloat` ignores everything from the first character that cannot occur in a number literal. |
| Helpers.MapTicker | index.js:22-26 | `USDRUBF`, `CNYRUBF` and `GLDRUBF` become `USDRUB.P`, `CNYRUB.P` and `GLDRUB.P`. Every other ticker, the empty (falsy) one included, comes back unchanged. |
| Helpers.MapTickerChangesOnlyAliases | index.js:24-25 | The alias changes a ticker exactly when the table lists it. |
| Helpers.MapTickerIdempotent | index.js:24-25 | No alias is itself aliased, so aliasing twice is aliasing once. |
| Helpers.MapTickerAsWritten | index.js:22-26 | The lookup as written returns an inherited member exactly for the names of `Object.prototype` members. Otherwise it returns what `MapTicker` returns. |
| Helpers.TickerText | index.js:22-26 | The ticker text a block gets is the intended alias (`MapTicker`) for every ticker that does not name an `Object.prototype` member. For one that does, it is the engine's `String` of the inherited member. |
| Helpers.AsWrittenLeaksPrototype | index.js:24-25 | For a ticker such as `constructor`, the lookup as written differs from the identity the alias promises. |
| Emitter.Generate | index.js:56-133 | The script starts with the header and ends with the footer. |
| Emitter.GenerateScript | index.js:72-98 | The handler's nested `forEach` loops build exactly the header, the blocks of every qualifying row sheet by sheet, and the footer. |
| Emitter.WorkbookTextIsNested | index.js:72-98 | The blocks of the workbook's entries are the row texts of the rows of the non-legend sheets, in sheet-then-row order. |
| Emitter.SheetTextIsConcat | index.js:78-96 | A sheet's text is the text of each row in turn: a row with a ticker gives its block, any other row gives nothing. |
| Emitter.FalsyTickerRowIgnored | index.js:79-80 | A row whose `Тикер` cell is falsy (missing, empty, 0, NaN, false, null) adds no entry, wherever it stands. |
| Emitter.QualifyingRowGivesOneEntry | index.js:79-96 | A row with a truthy `Тикер` adds exactly its own entry, between the entries of the rows before and after it. |
| Emitter.SheetEntriesSelectRows | index.js:78-96 | A sheet yields one entry per row with a truthy ticker, in row order, and nothing else. |
| Emitter.SheetEntriesAppend | index.js:78 | The entries of two runs of rows are the two runs' entries, joined. |
| Emitter.WorkbookEntriesAppend | index.js:72-74 | The entries of two runs of sheets are the two runs' entries, joined. |
| Emitter.LegendContributesNothing | index.js:73 | The `Легенда` sheet adds no entry, whatever rows it holds and wherever it stands. |
| Emitter.OtherSheetContributesItsRows | index.js:72-76 | Any other sheet adds its rows' entries after those of the sheets before it and before those of the sheets after it. |
| Emitter.LegendLeavesScriptUnchanged | index.js:72-74 | Adding or removing a legend sheet does not change the script. |
| Emitter.ScriptOfTwoWorkbooks | index.js:56-133 | The script of a workbook is the header, the blocks of its first sheets, the blocks of the rest, and the footer. |
| Emitter.BlocksAppend | index.js:89-96 | The blocks of two runs of entries are the two runs' blocks, joined. |
| BlockDecode.DecodeBlock | index.js:89-96 | A decoded block and the text after it make up the input again, and the rest is strictly shorter. |
| BlockDecode.DecodeBlocks | index.js:89-96 | A text the reader accepts is exactly the concatenation of the blocks it returns. |
| BlockDecode.BlocksRoundTrip | index.js:89-96 | The generated blocks read back as the entries they were made from: one block per entry, in order, with ticker and five values. |
| BlockDecode.BlocksDetermineEntries | index.js:89-96 | Two runs of entries with the same block text render the same, so equal scripts hold equally many blocks. |
| BlockDecode.ScriptBodyRoundTrip | index.js:56-133 | The text between the header and the footer reads back as the workbook's entries. |
| BlockDecode.EntryBlockReadsBack | index.js:89-96 | A block names its ticker and holds the five levels in the order goal 1, goal 2, stop, cancel, entry. |
| BlockDecode.RowBlockReadsBack | index.js:79-96 | The block of a row names what the lookup as written gives for its trimmed, stringified ticker cell. It holds `parseLevel` of `Цель 1`, `Цель 2`, `Стоп`, `Отмена` and `Вход`, in that order. |
| PineEval.LastIndex | index.js:89-96 | Finds the last block for a chart's ticker, and reports none exactly when no block names it. |
| PineEval.RunIsLastMatch | index.js:64-68 | After all blocks run, a chart holds the levels of the last block for its ticker, or the header's initial levels when no block names it. |
| PineEval.LaterRowWins | index.js:89-96 | When a ticker appears on several rows, the last of them decides what its chart shows. |
| PineEval.PlottedIsLastPositive | index.js:105-109 | The footer's series for a level holds a value exactly when the last block for the chart's ticker set that level to a positive value, and the value is that level. A chart that no block names plots nothing. |
| PineEval.UnlistedTickerPlotsNothing | index.js:105-109 | A chart whose ticker no row names shows no level. |
| PineEval.PlaceholderNeverPlotted | index.js:14 | A placeholder level cell is never plotted. |
| Scenarios.SampleEntries | index.js:72-96 | A worked workbook yields two entries: ` SBER ` with goal 1 ` 310,5 ` read as 310.5, `—` read as 0 and entry `230/235` cut at the slash and read as 230, and `USDRUBF` under its alias with no levels. The legend sheet and the two rows without a ticker are skipped. |
| Scenarios.SampleScript | index.js:56-133 | The script of the worked workbook is the header, the two blocks in row order, and the footer. |
| Seqs.AppendNested | index.js:72-98 | Two nested `forEach` loops that append text build the prefix followed by the text of every inner item in order. |
| Seqs.FilterMapSelects | index.js:78-96 | A loop that returns early on rejected items and emits the rest keeps exactly the accepted items, each mapped, in their order. |
| JsText.Trim | index.js:13 | `trim` removes exactly the leading and trailing white space and keeps the middle. |
| JsText.TrimUnique | index.js:13 | Any split of a text into blank, core and blank, with a core that starts and ends non-blank, has that core as its `trim`. |
| JsText.ReplaceFirst | index.js:16 | `replace(',', '.')` keeps the length and changes only the first comma. It leaves a text without a comma as it is. |
| JsText.BeforeFirst | index.js:15 | `split('/')[0]` is the longest prefix without a slash. |

## Left out

- HTTP plumbing is not modelled: Express routing, the GET form, the multer upload with its 25 MiB limit, status codes and response headers (index.js lines 2-7, 29-45 and 135-137). It is I/O.
- The missing-file and unreadable-workbook error responses are not modelled, because they come before any of the modelled logic.
- `XLSX.read` and `XLSX.utils.sheet_to_json` are a foreign library. The workbook is given directly as a sequence of named sheets whose rows map column headers to cell values.
- The verbatim Pine header and footer are not pasted. They are a `Template` parameter, because they hold no per-row logic. `PineEval` models what they do: initial levels of 0, and plotting only positive levels.
- Rounding a decimal literal to the nearest double is not modelled. `Numerics.toDouble` is a parameter, and None stands for an overflow to ±Infinity.
- `Number.prototype.toString` is not modelled. `Numerics.show` is a parameter.
- `String` of an inherited `Object.prototype` member (for example `function Object() { [native code] }` for `constructor`) is not modelled. `Numerics.member` is a parameter.
- The model has no negative zero: -0 and 0 are one real.
- UTF-16 code units are not modelled. A Dafny `char` is a Unicode scalar value, so a character outside the Basic Multilingual Plane is one `char` here but two code units in JavaScript, and a lone surrogate cannot be represented. `trim`, `split('/')` and `replace(',', '.')` give the same result either way, because none of their separators or white-space characters is a surrogate.
- The Vercel export at the end of the file is deployment glue.
- BlockDecode.BlocksRoundTrip: needs tickers without a double quote and number texts without a line break. The code does not escape the ticker, so a ticker holding `"` yields a block that does not read back.
- BlockDecode.BlocksDetermineEntries: needs the same quote-free tickers and single-line number texts, for the same reason.
- BlockDecode.ScriptBodyRoundTrip: needs the same quote-free tickers and single-line number texts, for the same reason.
- BlockDecode.EntryBlockReadsBack: needs a quote-free ticker and single-line number texts, for the same reason.
- BlockDecode.RowBlockReadsBack: needs a quote-free ticker and single-line number texts, for the same reason.
- PineEval.RunIsLastMatch: evaluates the blocks as if every ticker stood for itself inside a Pine string literal (no `"`, no `\`, no line break). The code does not escape the ticker, so a ticker such as `A"B` or `SBER\` gives a script that does not compile and plots nothing, and one such as `A\tB` gives a literal whose value is not the cell's text; the model represents neither.
- PineEval.LaterRowWins: assumes the same tickers free of `"`, `\` and line breaks, for the same reason.
- PineEval.PlottedIsLastPositive: assumes the same tickers free of `"`, `\` and line breaks, for the same reason.
- PineEval.UnlistedTickerPlotsNothing: assumes the same tickers free of `"`, `\` and line breaks, for the same reason.
- A ticker cell holding only white space is truthy, so it still yields a block, with an empty ticker. The model keeps this behaviour and states no lemma about it.

## Findings

| source | as written | input that shows it | evidently intended | confidence | as-written member | corrected member |
|---|---|---|---|---|---|---|
| index.js:24-25 | `map[excelTicker] ?? excelTicker` looks the ticker up in an object literal. That lookup also finds the members the object inherits from `Object.prototype`, and `??` keeps them because they are not null or undefined. | the ticker cell `constructor` (likewise `toString`, `valueOf`, `__proto__`) | every ticker without an alias comes back unchanged, so the block says `if ticker == "constructor"` | high, by the ECMAScript property lookup rules; not executed | Helpers.MapTickerAsWritten, Helpers.AsWrittenLeaksPrototype | Helpers.MapTicker, Helpers.MapTickerChangesOnlyAliases |

The emitter keeps the lookup as written, as the code does. `Helpers.MapTicker` and its lemmas state the intended lookup, and `Helpers.TickerText` states where the two part.

=== FILE: block_decode.dfy ===
/**
 * Reading the generated blocks back. The decoder is the inverse of the
 * block text of index.js lines 89-96: it recovers each block's ticker and
 * its five values as written. That the generated text decodes to exactly
 * the entries it was made from, in order, is the precise sense in which
 * the script holds one block per qualifying row and nothing else.
 *
 * The ticker is written between double quotes without escaping, and each
 * value ends at a line break, so the round trip needs tickers without a
 * double quote and number renderings without a line break.
 */
module BlockDecode {
  import opened Wrappers
  import opened JsText
  import opened Numbers
  import opened Emitter
  import opened Helpers

  /** A block as text shows it: the ticker and the five values as written. */
  datatype Rendered = Rendered(ticker: string, values: seq<string>)

  function Render(e: Entry, nums: Numerics): Rendered {
    Rendered(e.ticker, Shown(e.levels, nums))
  }

  function RenderAll(es: seq<Entry>, nums: Numerics): (rs: seq<Rendered>)
    ensures |rs| == |es|
  {
    if es == [] then [] else [Render(es[0], nums)] + RenderAll(es[1..], nums)
  }

  /** The text of a rendered block; `Block` is this text of `Render`. */
  function RenderedText(r: Rendered): string
    requires |r.values| == |Labels|
  {
    Opening + r.ticker + Closing + Assignments(Labels, r.values)
  }

  /** The text of a run of rendered blocks. */
  function RenderedTexts(rs: seq<Rendered>): string
    requires forall k :: 0 <= k < |rs| ==> |rs[k].values| == |Labels|
  {
    if rs == [] then "" else RenderedText(rs[0]) + RenderedTexts(rs[1..])
  }

  /** `s` without its prefix `lit`, when it has that prefix. */
  function Expect(s: string, lit: string): (r: Option<string>)
    ensures r.Some? <==> |lit| <= |s| && s[..|lit|] == lit
    ensures r.Some? ==> s == lit + r.value
  {
    if |lit| <= |s| && s[..|lit|] == lit then Some(s[|lit|..]) else None
  }

  /** The text before the first `c` and the text after it, when `c` occurs. */
  function ReadUntil(s: string, c: char): (r: Option<(string, string)>)
    ensures r.Some? <==> c in s
    ensures r.Some? ==> c !in r.value.0 && s == r.value.0 + [c] + r.value.1
  {
    var f := BeforeFirst(s, c);
    if |f| < |s| then
      assert s == f + [c] + s[|f| + 1..];
      Some((f, s[|f| + 1..]))
    else None
  }

  /** Reads one `label value` line per label, in order; gives the values and
      the text after the last line. */
  function DecodeAssignments(s: string, labels: seq<string>): (r: Option<(seq<string>, string)>)
    ensures r.Some? ==> |r.value.0| == |labels|
    ensures r.Some? ==> s == Assignments(labels, r.value.0) + r.value.1
    decreases |labels|
  {
    if labels == [] then
      assert s == "" + s;
      Some(([], s))
    else
      match Expect(s, labels[0])
      case None => None
      case Some(r1) =>
        match ReadUntil(r1, '\n')
        case None => None
        case Some((v, r2)) =>
          match DecodeAssignments(r2, labels[1..])
          case None => None
          case Some((vs, r3)) =>
            JoinLine(s, labels[0], r1, v, r2, Assignments(labels[1..], vs), r3);
            assert ([v] + vs)[0] == v && ([v] + vs)[1..] == vs;
            Some(([v] + vs, r3))
  }

  /** Reads one block off the front of `s`; gives it and the rest. */
  function DecodeBlock(s: string): (r: Option<(Rendered, string)>)
    ensures r.Some? ==> |r.value.0.values| == |Labels| && s == RenderedText(r.value.0) + r.value.1
    ensures r.Some? ==> |r.value.1| < |s|
  {
    match Expect(s, Opening)
    case None => None
    case Some(r1) =>
      match ReadUntil(r1, '"')
      case None => None
      case Some((t, r2)) =>
        match Expect(r2, "\n")
        case None => None
        case Some(r3) =>
          match DecodeAssignments(r3, Labels)
          case None => None
          case Some((vs, r4)) =>
            JoinBlock(s, r1, t, r2, r3, Assignments(Labels, vs), r4);
            Some((Rendered(t, vs), r4))
  }

  /** Reads blocks until the text is used up; fails unless the whole text
      is a run of blocks. */
  function DecodeBlocks(s: string): (r: Option<seq<Rendered>>)
    ensures r.Some? ==> (forall k :: 0 <= k < |r.value| ==> |r.value[k].values| == |Labels|)
    ensures r.Some? ==> s == RenderedTexts(r.value)
    decreases |s|
  {
    if s == [] then Some([])
    else
      match DecodeBlock(s)
      case None => None
      case Some((b, rest)) =>
        match DecodeBlocks(rest)
        case None => None
        case Some(bs) =>
          RenderedTextsCons(b, bs);
          Some([b] + bs)
  }

  lemma {:induction false} RenderedTextsCons(b: Rendered, bs: seq<Rendered>)
    requires |b.values| == |Labels|
    requires forall k :: 0 <= k < |bs| ==> |bs[k].values| == |Labels|
    ensures forall k :: 0 <= k < |[b] + bs| ==> |([b] + bs)[k].values| == |Labels|
    ensures RenderedTexts([b] + bs) == RenderedText(b) + RenderedTexts(bs)
  {
    assert ([b] + bs)[0] == b && ([b] + bs)[1..] == bs;
  }

  lemma {:induction false} JoinLine(s: string, lbl: string, r1: string, v: string, r2: string, x: string, r3: string)
    requires s == lbl + r1 && r1 == v + ['\n'] + r2 && r2 == x + r3
    ensures s == lbl + v + "\n" + x + r3
  {
  }

  lemma {:induction false} JoinBlock(s: string, r1: string, t: string, r2: string, r3: string, x: string, r4: string)
    requires s == Opening + r1 && r1 == t + ['"'] + r2 && r2 == "\n" + r3 && r3 == x + r4
    ensures s == Opening + t + Closing + x + r4
  {
    assert Closing == ['"'] + "\n";
  }

  // ---------------------------------------------------------------------
  // The round trip

  /** No number is written with a line break in it. */
  ghost predicate SingleLineNumbers(nums: Numerics) {
    forall x :: '\n' !in nums.show(x)
  }

  /** Every ticker of `es` can stand between double quotes. */
  ghost predicate QuotableTickers(es: seq<Entry>) {
    forall k :: 0 <= k < |es| ==> '"' !in es[k].ticker
  }

  lemma {:induction false} ExpectJoin(lit: string, rest: string)
    ensures Expect(lit + rest, lit) == Some(rest)
  {
    assert (lit + rest)[..|lit|] == lit;
    assert (lit + rest)[|lit|..] == rest;
  }

  lemma {:induction false} ReadUntilJoin(x: string, c: char, rest: string)
    requires c !in x
    ensures ReadUntil(x + [c] + rest, c) == Some((x, rest))
  {
    BeforeFirstOfJoin(x, c, rest);
    assert (x + [c] + rest)[|x| + 1..] == rest;
  }

  lemma {:induction false} AssignmentsRoundTrip(labels: seq<string>, vs: seq<string>, rest: string)
    requires |labels| == |vs|
    requires forall k :: 0 <= k < |vs| ==> '\n' !in vs[k]
    ensures DecodeAssignments(Assignments(labels, vs) + rest, labels) == Some((vs, rest))
    decreases |labels|
  {
    if labels != [] {
      var tail := Assignments(labels[1..], vs[1..]) + rest;
      assert Assignments(labels, vs) + rest == labels[0] + (vs[0] + ['\n'] + tail);
      ExpectJoin(labels[0], vs[0] + ['\n'] + tail);
      ReadUntilJoin(vs[0], '\n', tail);
      AssignmentsRoundTrip(labels[1..], vs[1..], rest);
      assert [vs[0]] + vs[1..] == vs;
    } else {
      assert Assignments(labels, vs) + rest == rest;
    }
  }

  /** One block reads back as itself, whatever text follows it. */
  lemma {:induction false} BlockRoundTrip(r: Rendered, rest: string)
    requires |r.values| == |Labels|
    requires '"' !in r.ticker
    requires forall k :: 0 <= k < |r.values| ==> '\n' !in r.values[k]
    ensures DecodeBlock(RenderedText(r) + rest) == Some((r, rest))
  {
    var a := Assignments(Labels, r.values) + rest;
    assert RenderedText(r) + rest == Opening + (r.ticker + ['"'] + ("\n" + a));
    ExpectJoin(Opening, r.ticker + ['"'] + ("\n" + a));
    ReadUntilJoin(r.ticker, '"', "\n" + a);
    ExpectJoin("\n", a);
    AssignmentsRoundTrip(Labels, r.values, rest);
  }

  /** The generated blocks read back as the entries they were made from:
      their tickers and values, one block per entry, in order. */
  lemma {:induction false} BlocksRoundTrip(es: seq<Entry>, nums: Numerics)
    requires QuotableTickers(es) && SingleLineNumbers(nums)
    ensures DecodeBlocks(Blocks(es, nums)) == Some(RenderAll(es, nums))
    decreases |es|
  {
    if es != [] {
      var e, tail := es[0], es[1..];
      var r := Render(e, nums);
      assert es == [e] + tail;
      FirstBlock(e, tail, nums);
      RenderedValuesSingleLine(e, nums);
      BlockRoundTrip(r, Blocks(tail, nums));
      TailQuotable(es);
      BlocksRoundTrip(tail, nums);
      DecodeBlocksCons(r, Blocks(tail, nums), RenderAll(tail, nums));
    }
  }

  lemma {:induction false} DecodeBlocksCons(r: Rendered, rest: string, bs: seq<Rendered>)
    requires |r.values| == |Labels|
    requires DecodeBlock(RenderedText(r) + rest) == Some((r, rest))
    requires DecodeBlocks(rest) == Some(bs)
    ensures DecodeBlocks(RenderedText(r) + rest) == Some([r] + bs)
  {
    assert |RenderedText(r) + rest| > 0 by {
      assert |Opening| > 0;
    }
  }

  lemma {:induction false} RenderedValuesSingleLine(e: Entry, nums: Numerics)
    requires SingleLineNumbers(nums)
    ensures forall k :: 0 <= k < |Render(e, nums).values| ==> '\n' !in Render(e, nums).values[k]
  {
  }

  lemma {:induction false} FirstBlock(e: Entry, tail: seq<Entry>, nums: Numerics)
    ensures Blocks([e] + tail, nums) == RenderedText(Render(e, nums)) + Blocks(tail, nums)
  {
    BlocksAppend([e], tail, nums);
    assert [e][..0] == [];
  }

  lemma {:induction false} TailQuotable(es: seq<Entry>)
    requires es != [] && QuotableTickers(es)
    ensures QuotableTickers(es[1..])
  {
    forall k | 0 <= k < |es| - 1 ensures '"' !in es[1..][k].ticker {
      assert es[1..][k] == es[k + 1];
    }
  }

  /** Two runs of entries give the same text only when they render the same:
      in particular equal scripts hold equally many blocks. */
  lemma {:induction false} BlocksDetermineEntries(xs: seq<Entry>, ys: seq<Entry>, nums: Numerics)
    requires QuotableTickers(xs) && QuotableTickers(ys) && SingleLineNumbers(nums)
    requires Blocks(xs, nums) == Blocks(ys, nums)
    ensures RenderAll(xs, nums) == RenderAll(ys, nums) && |xs| == |ys|
  {
    BlocksRoundTrip(xs, nums);
    BlocksRoundTrip(ys, nums);
  }

  /** The text between the header and the footer of a generated script
      reads back as the entries of the workbook, one block per qualifying
      row, sheet by sheet and row by row. */
  lemma {:induction false} ScriptBodyRoundTrip(wb: Workbook, tpl: Template, nums: Numerics)
    requires QuotableTickers(WorkbookEntries(wb, nums)) && SingleLineNumbers(nums)
    ensures var s := Generate(wb, tpl, nums);
      DecodeBlocks(s[|tpl.header|..|s| - |tpl.footer|]) == Some(RenderAll(WorkbookEntries(wb, nums), nums))
  {
    var s := Generate(wb, tpl, nums);
    var body := Blocks(WorkbookEntries(wb, nums), nums);
    assert s[|tpl.header|..|s| - |tpl.footer|] == body;
    BlocksRoundTrip(WorkbookEntries(wb, nums), nums);
  }

  /** A block reads back as its ticker and its five levels as written, in
      the order goal 1, goal 2, stop, cancel, entry. */
  lemma {:induction false} EntryBlockReadsBack(e: Entry, nums: Numerics)
    requires '"' !in e.ticker && SingleLineNumbers(nums)
    ensures DecodeBlocks(Block(e, nums)) == Some([Rendered(e.ticker,
      [nums.show(e.levels.goal1), nums.show(e.levels.goal2), nums.show(e.levels.stop),
       nums.show(e.levels.cancel), nums.show(e.levels.entry)])])
  {
    var r := Render(e, nums);
    RenderedValuesSingleLine(e, nums);
    BlockRoundTrip(r, "");
    assert DecodeBlocks("") == Some([]);
    DecodeBlocksCons(r, "", []);
    assert RenderedText(r) + "" == Block(e, nums);
    assert [r] + [] == [r];
  }

  /** The block of a row with a ticker names what `mapExcelTickerToPine`
      gives for its trimmed ticker text and holds `parseLevel` of its five level columns, in order. */
  lemma {:induction false} RowBlockReadsBack(row: Row, nums: Numerics)
    requires Qualifies(row) && '"' !in TickerOf(row, nums) && SingleLineNumbers(nums)
    ensures DecodeBlocks(RowText(row, nums)) == Some([Rendered(
      TickerText(Trim(CellToString(Lookup(row, TickerColumn), nums)), nums),
      [nums.show(ParseLevel(Lookup(row, Goal1Column), nums)),
       nums.show(ParseLevel(Lookup(row, Goal2Column), nums)),
       nums.show(ParseLevel(Lookup(row, StopColumn), nums)),
       nums.show(ParseLevel(Lookup(row, CancelColumn), nums)),
       nums.show(ParseLevel(Lookup(row, EntryColumn), nums))])])
  {
    EntryBlockReadsBack(EntryOf(row, nums), nums);
  }
}

=== FILE: emitter.dfy ===
/**
 * The script generator of the upload handler (index.js lines 56-133): a
 * header, then one `if ticker == "…"` block per spreadsheet row that names
 * a ticker, sheet by sheet and row by row, skipping the legend sheet, then
 * a footer.
 *
 * The workbook is given as the list of its sheets in `SheetNames` order,
 * each with the rows the spreadsheet reader makes of it; the header and
 * the footer are fixed texts without per-row content and are passed in as
 * a `Template`.
 */
module Emitter {
  import opened JsText
  import opened Numbers
  import opened Helpers
  import opened Seqs

  /** One spreadsheet row: column header to cell value. */
  type Row = map<string, Cell>

  datatype Sheet = Sheet(name: string, rows: seq<Row>)

  type Workbook = seq<Sheet>

  /** The fixed Pine text before and after the generated blocks. */
  datatype Template = Template(header: string, footer: string)

  /** The five levels of one ticker, in the order the block assigns them. */
  datatype Levels = Levels(goal1: real, goal2: real, stop: real, cancel: real, entry: real)

  /** What one qualifying row contributes: the chart ticker and its levels. */
  datatype Entry = Entry(ticker: string, levels: Levels)

  /** The sheet that documents the workbook and holds no levels. */
  const LegendSheet: string := "Легенда"

  const TickerColumn: string := "Тикер"
  const Goal1Column: string := "Цель 1"
  const Goal2Column: string := "Цель 2"
  const StopColumn: string := "Стоп"
  const CancelColumn: string := "Отмена"
  const EntryColumn: string := "Вход"

  /** `row[column]`: a column the row lacks reads as undefined. */
  function Lookup(row: Row, column: string): Cell {
    if column in row then row[column] else Undefined
  }

  /** A row produces a block exactly when its ticker cell is truthy. */
  predicate Qualifies(row: Row) {
    IsTruthy(Lookup(row, TickerColumn))
  }

  /** The chart ticker of a row: its ticker cell as text, trimmed, passed
      through `mapExcelTickerToPine` and put in the script as text. */
  function TickerOf(row: Row, nums: Numerics): string {
    TickerText(Trim(CellToString(Lookup(row, TickerColumn), nums)), nums)
  }

  function LevelsOf(row: Row, nums: Numerics): Levels {
    Levels(
      ParseLevel(Lookup(row, Goal1Column), nums),
      ParseLevel(Lookup(row, Goal2Column), nums),
      ParseLevel(Lookup(row, StopColumn), nums),
      ParseLevel(Lookup(row, CancelColumn), nums),
      ParseLevel(Lookup(row, EntryColumn), nums))
  }

  function EntryOf(row: Row, nums: Numerics): Entry {
    Entry(TickerOf(row, nums), LevelsOf(row, nums))
  }

  /** The entries of a sheet's rows, in row order. */
  function SheetEntries(rows: seq<Row>, nums: Numerics): (r: seq<Entry>)
    ensures |r| <= |rows|
  {
    if rows == [] then []
    else
      var last := rows[|rows| - 1];
      SheetEntries(rows[..|rows| - 1], nums) + (if Qualifies(last) then [EntryOf(last, nums)] else [])
  }

  /** The entries of a workbook, sheet after sheet, the legend sheet left out. */
  function WorkbookEntries(wb: Workbook, nums: Numerics): seq<Entry> {
    if wb == [] then []
    else
      var last := wb[|wb| - 1];
      WorkbookEntries(wb[..|wb| - 1], nums) + (if last.name == LegendSheet then [] else SheetEntries(last.rows, nums))
  }

  // ---------------------------------------------------------------------
  // The text of a block

  /** The texts in front of the five values of a block, in block order. */
  const Labels: seq<string> := [
    "    goal1        := ",
    "    goal2        := ",
    "    stop_level   := ",
    "    cancel_level := ",
    "    entry_level  := "
  ]

  /** The text in front of a block's ticker. */
  const Opening: string := "\nif ticker == \""

  /** The text after a block's ticker. */
  const Closing: string := "\"\n"

  /** The five levels in block order. */
  function Values(l: Levels): (v: seq<real>)
    ensures |v| == |Labels|
  {
    [l.goal1, l.goal2, l.stop, l.cancel, l.entry]
  }

  /** One assignment line per value: label, the value as JavaScript writes
      it, line break. */
  function Assignments(labels: seq<string>, shown: seq<string>): string
    requires |labels| == |shown|
  {
    if labels == [] then ""
    else labels[0] + shown[0] + "\n" + Assignments(labels[1..], shown[1..])
  }

  /** How JavaScript writes the five levels inside the template. */
  function Shown(l: Levels, nums: Numerics): (r: seq<string>)
    ensures |r| == |Labels|
  {
    var v := Values(l);
    [nums.show(v[0]), nums.show(v[1]), nums.show(v[2]), nums.show(v[3]), nums.show(v[4])]
  }

  /** The block of one entry. */
  function Block(e: Entry, nums: Numerics): string {
    Opening + e.ticker + Closing + Assignments(Labels, Shown(e.levels, nums))
  }

  /** The blocks of a list of entries, one after the other. */
  function Blocks(es: seq<Entry>, nums: Numerics): string {
    if es == [] then ""
    else Blocks(es[..|es| - 1], nums) + Block(es[|es| - 1], nums)
  }

  /** The whole generated script. */
  function Generate(wb: Workbook, tpl: Template, nums: Numerics): (r: string)
    ensures |r| >= |tpl.header| + |tpl.footer|
    ensures r[..|tpl.header|] == tpl.header
    ensures r[|r| - |tpl.footer|..] == tpl.footer
  {
    tpl.header + Blocks(WorkbookEntries(wb, nums), nums) + tpl.footer
  }

  /** The handler's loops: the sheets without the legend, each sheet's rows,
      one block per row with a ticker, then the footer. */
  method GenerateScript(wb: Workbook, tpl: Template, nums: Numerics) returns (script: string)
    ensures script == Generate(wb, tpl, nums)
  {
    var sheets := Filter(wb, IsDataSheet);
    script := AppendNested(tpl.header, sheets, (sheet: Sheet) => sheet.rows, row => RowText(row, nums));
    WorkbookTextIsNested(wb, nums);
    script := script + tpl.footer;
  }

  /** Every sheet but the legend carries levels. */
  predicate IsDataSheet(sheet: Sheet) {
    sheet.name != LegendSheet
  }

  /** The blocks of a workbook are what the nested loops append: the row
      texts of the rows of the data sheets, in order. */
  lemma {:induction false} WorkbookTextIsNested(wb: Workbook, nums: Numerics)
    ensures Blocks(WorkbookEntries(wb, nums), nums)
         == ConcatMap(Flatten(Filter(wb, IsDataSheet), (sheet: Sheet) => sheet.rows), row => RowText(row, nums))
    decreases |wb|
  {
    if wb != [] {
      var init, last := wb[..|wb| - 1], wb[|wb| - 1];
      assert wb == init + [last];
      WorkbookTextIsNested(init, nums);
      WorkbookBlocksSnoc(init, last, nums);
      NestedSnoc(init, last, IsDataSheet, (sheet: Sheet) => sheet.rows, row => RowText(row, nums));
      SheetTextIsConcat(last.rows, nums);
    }
  }

  /** What the row callback appends: the row's block, or nothing when the
      row has no ticker. */
  function RowText(row: Row, nums: Numerics): string {
    if Qualifies(row) then Block(EntryOf(row, nums), nums) else ""
  }

  lemma {:induction false} SheetTextIsConcat(rows: seq<Row>, nums: Numerics)
    ensures Blocks(SheetEntries(rows, nums), nums) == ConcatMap(rows, row => RowText(row, nums))
    decreases |rows|
  {
    if rows != [] {
      var init, last := rows[..|rows| - 1], rows[|rows| - 1];
      assert rows == init + [last];
      SheetBlocksSnoc(init, last, nums);
      SheetTextIsConcat(init, nums);
    }
  }

  /** Concatenation is associative; kept apart so that the induction below
      does not see the definitions it does not need. */
  lemma Associate(a: string, b: string, c: string)
    ensures (a + b) + c == a + (b + c)
  {
  }

  lemma {:induction false} BlocksSnoc(es: seq<Entry>, e: Entry, nums: Numerics)
    ensures Blocks(es + [e], nums) == Blocks(es, nums) + Block(e, nums)
  {
    assert (es + [e])[..|es|] == es;
  }

  /** The blocks of two runs of entries are the two runs' blocks, joined. */
  lemma {:induction false} BlocksAppend(xs: seq<Entry>, ys: seq<Entry>, nums: Numerics)
    ensures Blocks(xs + ys, nums) == Blocks(xs, nums) + Blocks(ys, nums)
    decreases |ys|
  {
    if ys == [] {
      assert xs + ys == xs;
    } else {
      var init, last := ys[..|ys| - 1], ys[|ys| - 1];
      assert xs + ys == (xs + init) + [last];
      assert ys == init + [last];
      BlocksSnoc(xs + init, last, nums);
      BlocksAppend(xs, init, nums);
      BlocksSnoc(init, last, nums);
      Associate(Blocks(xs, nums), Blocks(init, nums), Block(last, nums));
    }
  }

  lemma {:induction false} SheetEntriesSnoc(rows: seq<Row>, row: Row, nums: Numerics)
    ensures SheetEntries(rows + [row], nums)
         == SheetEntries(rows, nums) + (if Qualifies(row) then [EntryOf(row, nums)] else [])
  {
    assert (rows + [row])[..|rows|] == rows;
  }

  lemma {:induction false} SheetBlocksSnoc(rows: seq<Row>, row: Row, nums: Numerics)
    ensures Blocks(SheetEntries(rows + [row], nums), nums)
         == Blocks(SheetEntries(rows, nums), nums) + (if Qualifies(row) then Block(EntryOf(row, nums), nums) else "")
  {
    SheetEntriesSnoc(rows, row, nums);
    if Qualifies(row) {
      BlocksSnoc(SheetEntries(rows, nums), EntryOf(row, nums), nums);
    } else {
      assert SheetEntries(rows, nums) + [] == SheetEntries(rows, nums);
    }
  }

  lemma {:induction false} WorkbookEntriesSnoc(wb: Workbook, sheet: Sheet, nums: Numerics)
    ensures WorkbookEntries(wb + [sheet], nums)
         == WorkbookEntries(wb, nums) + (if sheet.name == LegendSheet then [] else SheetEntries(sheet.rows, nums))
  {
    assert (wb + [sheet])[..|wb|] == wb;
  }

  lemma {:induction false} WorkbookBlocksSnoc(wb: Workbook, sheet: Sheet, nums: Numerics)
    ensures Blocks(WorkbookEntries(wb + [sheet], nums), nums)
         == Blocks(WorkbookEntries(wb, nums), nums)
            + (if sheet.name == LegendSheet then "" else Blocks(SheetEntries(sheet.rows, nums), nums))
  {
    WorkbookEntriesSnoc(wb, sheet, nums);
    if sheet.name == LegendSheet {
      assert WorkbookEntries(wb, nums) + [] == WorkbookEntries(wb, nums);
    } else {
      BlocksAppend(WorkbookEntries(wb, nums), SheetEntries(sheet.rows, nums), nums);
    }
  }

  // ---------------------------------------------------------------------
  // Which rows produce blocks, and in which order

  /** The entries of two runs of rows are the two runs' entries, joined. */
  lemma {:induction false} SheetEntriesAppend(xs: seq<Row>, ys: seq<Row>, nums: Numerics)
    ensures SheetEntries(xs + ys, nums) == SheetEntries(xs, nums) + SheetEntries(ys, nums)
  {
    SheetEntriesAreFilterMap(xs + ys, nums);
    SheetEntriesAreFilterMap(xs, nums);
    SheetEntriesAreFilterMap(ys, nums);
    FilterMapAppend(xs, ys, row => Qualifies(row), row => EntryOf(row, nums));
  }

  /** A row whose ticker cell is falsy (missing, empty, 0, NaN, false,
      null) adds no entry, wherever it stands. */
  lemma {:induction false} FalsyTickerRowIgnored(pre: seq<Row>, row: Row, post: seq<Row>, nums: Numerics)
    requires !IsTruthy(Lookup(row, TickerColumn))
    ensures SheetEntries(pre + [row] + post, nums) == SheetEntries(pre + post, nums)
  {
    SheetEntriesAppend(pre + [row], post, nums);
    SheetEntriesSnoc(pre, row, nums);
    SheetEntriesAppend(pre, post, nums);
    assert SheetEntries(pre, nums) + [] == SheetEntries(pre, nums);
  }

  /** A row whose ticker cell is truthy adds exactly its own entry, between
      the entries of the rows before and after it. */
  lemma {:induction false} QualifyingRowGivesOneEntry(pre: seq<Row>, row: Row, post: seq<Row>, nums: Numerics)
    requires IsTruthy(Lookup(row, TickerColumn))
    ensures SheetEntries(pre + [row] + post, nums)
         == SheetEntries(pre, nums) + [EntryOf(row, nums)] + SheetEntries(post, nums)
  {
    SheetEntriesAppend(pre + [row], post, nums);
    SheetEntriesSnoc(pre, row, nums);
  }

  /** The entries of a sheet are what `Array.prototype.filter` followed by
      `map` would give: the entry of each row with a truthy ticker. */
  lemma {:induction false} SheetEntriesAreFilterMap(rows: seq<Row>, nums: Numerics)
    ensures SheetEntries(rows, nums) == FilterMap(rows, row => Qualifies(row), row => EntryOf(row, nums))
    decreases |rows|
  {
    if rows != [] {
      SheetEntriesAreFilterMap(rows[..|rows| - 1], nums);
    }
  }

  /** A sheet yields one entry per row with a truthy ticker, in row order,
      and nothing else: `idx` holds the positions of those rows. */
  lemma {:induction false} SheetEntriesSelectRows(rows: seq<Row>, nums: Numerics) returns (idx: seq<nat>)
    ensures Selects(rows, row => Qualifies(row), row => EntryOf(row, nums), idx, SheetEntries(rows, nums))
  {
    SheetEntriesAreFilterMap(rows, nums);
    idx := FilterMapSelects(rows, row => Qualifies(row), row => EntryOf(row, nums));
  }

  /** The entries of two runs of sheets are the two runs' entries, joined. */
  lemma {:induction false} WorkbookEntriesAppend(xs: Workbook, ys: Workbook, nums: Numerics)
    ensures WorkbookEntries(xs + ys, nums) == WorkbookEntries(xs, nums) + WorkbookEntries(ys, nums)
    decreases |ys|
  {
    if ys == [] {
      assert xs + ys == xs;
    } else {
      var init, last := ys[..|ys| - 1], ys[|ys| - 1];
      assert xs + ys == (xs + init) + [last];
      assert ys == init + [last];
      WorkbookEntriesSnoc(xs + init, last, nums);
      WorkbookEntriesAppend(xs, init, nums);
      WorkbookEntriesSnoc(init, last, nums);
    }
  }

  /** The legend sheet adds no entry, whatever rows it holds and wherever it
      stands among the sheets. */
  lemma {:induction false} LegendContributesNothing(a: Workbook, rows: seq<Row>, b: Workbook, nums: Numerics)
    ensures WorkbookEntries(a + [Sheet(LegendSheet, rows)] + b, nums) == WorkbookEntries(a + b, nums)
  {
    var legend := Sheet(LegendSheet, rows);
    WorkbookEntriesAppend(a + [legend], b, nums);
    WorkbookEntriesSnoc(a, legend, nums);
    WorkbookEntriesAppend(a, b, nums);
    assert WorkbookEntries(a, nums) + [] == WorkbookEntries(a, nums);
  }

  /** Any other sheet adds the entries of its rows, after those of the
      sheets before it and before those of the sheets after it. */
  lemma {:induction false} OtherSheetContributesItsRows(a: Workbook, sheet: Sheet, b: Workbook, nums: Numerics)
    requires sheet.name != LegendSheet
    ensures WorkbookEntries(a + [sheet] + b, nums)
         == WorkbookEntries(a, nums) + SheetEntries(sheet.rows, nums) + WorkbookEntries(b, nums)
  {
    WorkbookEntriesAppend(a + [sheet], b, nums);
    WorkbookEntriesSnoc(a, sheet, nums);
  }

  /** Adding or removing a legend sheet leaves the generated script as it is. */
  lemma {:induction false} LegendLeavesScriptUnchanged(a: Workbook, rows: seq<Row>, b: Workbook, tpl: Template, nums: Numerics)
    ensures Generate(a + [Sheet(LegendSheet, rows)] + b, tpl, nums) == Generate(a + b, tpl, nums)
  {
    LegendContributesNothing(a, rows, b, nums);
  }

  /** The script of a workbook is the header, then the blocks of its sheets
      one sheet after the other, then the footer. */
  lemma {:induction false} ScriptOfTwoWorkbooks(xs: Workbook, ys: Workbook, tpl: Template, nums: Numerics)
    ensures Generate(xs + ys, tpl, nums)
         == tpl.header + Blocks(WorkbookEntries(xs, nums), nums) + Blocks(WorkbookEntries(ys, nums), nums) + tpl.footer
  {
    var ex, ey := WorkbookEntries(xs, nums), WorkbookEntries(ys, nums);
    WorkbookEntriesAppend(xs, ys, nums);
    BlocksAppend(ex, ey, nums);
    JoinMiddle(tpl.header, Blocks(ex + ey, nums), Blocks(ex, nums), Blocks(ey, nums), tpl.footer);
  }

  /** Regrouping a concatenation, kept apart so that the proof above does
      not see the definitions it does not need. */
  lemma JoinMiddle(h: string, m: string, a: string, b: string, f: string)
    requires m == a + b
    ensures h + m + f == h + a + b + f
  {
  }
}

=== FILE: helpers.dfy ===
/**
 * The two helpers of the upload handler (index.js lines 10-26): the level
 * normaliser `parseLevel`, which turns any spreadsheet cell into a finite
 * number with 0 standing for "no level", and the ticker alias
 * `mapExcelTickerToPine`.
 */
module Helpers {
  import opened Wrappers
  import opened JsText
  import opened Numbers

  /** A cell value as the spreadsheet reader hands it over in a row object.
      `Other` is any further JavaScript value (a Date, an error object);
      it carries `String(value)`. */
  datatype Cell =
    | Undefined
    | Null
    | Text(text: string)
    | Num(number: JsNumber)
    | Boolean(flag: bool)
    | Other(rendering: string)

  /** JavaScript truthiness of a cell value. */
  predicate IsTruthy(c: Cell) {
    match c
    case Undefined => false
    case Null => false
    case Text(t) => t != ""
    case Num(n) => Truthy(n)
    case Boolean(b) => b
    case Other(_) => true
  }

  /** `String(value)`. */
  function CellToString(c: Cell, nums: Numerics): string {
    match c
    case Undefined => "undefined"
    case Null => "null"
    case Text(t) => t
    case Num(n) => NumberToString(n, nums)
    case Boolean(b) => if b then "true" else "false"
    case Other(r) => r
  }

  // ---------------------------------------------------------------------
  // parseLevel

  /** The trimmed cell texts that mean "no level": empty, an em dash, or a
      double hyphen. */
  predicate IsPlaceholder(t: string) {
    t == "" || t == "—" || t == "--"
  }

  /** What a text cell hands to `parseFloat`, or None when its trimmed text
      is a placeholder and no parse happens. */
  function Preprocess(s: string): (r: Option<string>)
    ensures r.None? <==> IsPlaceholder(Trim(s))
    ensures r.Some? ==> '/' !in r.value && |r.value| <= |Trim(s)|
    ensures r.Some? ==> r.value == [] || (!IsWhitespace(r.value[0]) && !IsWhitespace(r.value[|r.value| - 1]))
    ensures r.Some? && '/' !in s && ',' !in s ==> r.value == Trim(s)
  {
    var trimmed := Trim(s);
    TrimKeepsSlashAndComma(s);
    if IsPlaceholder(trimmed) then None else Some(Normalize(trimmed))
  }

  /** A trimmed, non-placeholder text cut at its first `/` (and trimmed
      again), with its first `,` made a `.`. */
  function Normalize(t: string): (r: string)
    ensures '/' !in r && |r| <= |t|
    ensures (t == [] || (!IsWhitespace(t[0]) && !IsWhitespace(t[|t| - 1]))) ==>
      r == [] || (!IsWhitespace(r[0]) && !IsWhitespace(r[|r| - 1]))
    ensures '/' !in t && ',' !in t ==> r == t
  {
    var first := CutAtSlash(t);
    ReplaceFirstKeepsAbsent(first, ',', '.', '/');
    EndsAfterReplace(t, first);
    ReplaceFirst(first, ',', '.')
  }

  /** `t.split('/')[0].trim()` when `t` has a slash, `t` itself otherwise. */
  function CutAtSlash(t: string): (r: string)
    ensures '/' !in r && |r| <= |t|
    ensures r == [] || (!IsWhitespace(r[0]) && !IsWhitespace(r[|r| - 1])) || r == t
    ensures '/' !in t ==> r == t
  {
    if '/' in t then
      TrimKeepsAbsent(BeforeFirst(t, '/'), '/');
      Trim(BeforeFirst(t, '/'))
    else t
  }

  lemma {:induction false} EndsAfterReplace(t: string, first: string)
    requires first == [] || (!IsWhitespace(first[0]) && !IsWhitespace(first[|first| - 1])) || first == t
    ensures (t == [] || (!IsWhitespace(t[0]) && !IsWhitespace(t[|t| - 1]))) ==>
      var r := ReplaceFirst(first, ',', '.');
      r == [] || (!IsWhitespace(r[0]) && !IsWhitespace(r[|r| - 1]))
  {
    if t == [] || (!IsWhitespace(t[0]) && !IsWhitespace(t[|t| - 1])) {
      ReplaceFirstKeepsEnds(first, ',', '.');
    }
  }

  lemma {:induction false} TrimKeepsSlashAndComma(s: string)
    ensures '/' !in s ==> '/' !in Trim(s)
    ensures ',' !in s ==> ',' !in Trim(s)
  {
    if '/' !in s { TrimKeepsAbsent(s, '/'); }
    if ',' !in s { TrimKeepsAbsent(s, ','); }
  }

  /** `parseLevel(val)`: total, and always a finite number. Absent values,
      booleans and other objects give 0; a number gives itself when finite
      and 0 otherwise; a text gives what `parseFloat` makes of its
      preprocessed form when that is finite, and 0 otherwise. */
  function ParseLevel(c: Cell, nums: Numerics): (r: real)
    ensures c.Undefined? || c.Null? || c.Boolean? || c.Other? ==> r == 0.0
    ensures c.Num? && c.number.Finite? ==> r == c.number.value
    ensures c.Num? && !c.number.Finite? ==> r == 0.0
    ensures c.Text? && IsPlaceholder(Trim(c.text)) ==> r == 0.0
  {
    match c
    case Text(s) =>
      (match Preprocess(s)
       case None => 0.0
       case Some(p) => FiniteOrZero(ParseFloat(p, nums)))
    case Num(n) => FiniteOrZero(n)
    case _ => 0.0
  }

  // ---------------------------------------------------------------------
  // mapExcelTickerToPine

  /** The alias table: exchange futures tickers of the spreadsheet and the
      perpetual-contract tickers the chart uses for them. */
  const Aliases: map<string, string> :=
    map["USDRUBF" := "USDRUB.P", "CNYRUBF" := "CNYRUB.P", "GLDRUBF" := "GLDRUB.P"]

  /** `mapExcelTickerToPine` with the lookup the authors meant: the alias
      of an aliased ticker, every other ticker (the empty one included)
      unchanged. */
  function MapTicker(t: string): (r: string)
    ensures t == "USDRUBF" ==> r == "USDRUB.P"
    ensures t == "CNYRUBF" ==> r == "CNYRUB.P"
    ensures t == "GLDRUBF" ==> r == "GLDRUB.P"
    ensures t != "USDRUBF" && t != "CNYRUBF" && t != "GLDRUBF" ==> r == t
  {
    if t == "" then t
    else if t in Aliases then Aliases[t]
    else t
  }

  // ---------------------------------------------------------------------
  // Properties of parseLevel

  /** The placeholders hold no number literal: `parseFloat` gives NaN. */
  lemma {:induction false} PlaceholderIsNaN(q: string, nums: Numerics)
    requires IsPlaceholder(q)
    ensures ParseFloat(q, nums) == NaN
  {
    PlaceholderScansNothing(q);
  }

  lemma {:induction false} PlaceholderScansNothing(q: string)
    requires IsPlaceholder(q)
    ensures ScanLiteral(TrimStart(q)).None?
  {
    if q == "" {
      EmptyScansNothing(q);
    } else if q == "--" {
      DashesScanNothing(q);
    } else {
      EmDashScansNothing(q);
    }
  }

  lemma {:induction false} EmptyScansNothing(q: string)
    requires q == ""
    ensures ScanLiteral(TrimStart(q)).None?
  {
    assert TrimStart(q) == q;
    assert MantissaEnd(q, 0) == 0;
  }

  lemma {:induction false} DashesScanNothing(q: string)
    requires q == "--"
    ensures ScanLiteral(TrimStart(q)).None?
  {
    assert !IsWhitespace(q[0]) && IsSign(q[0]);
    NoLeadingBlank(q);
    NoMantissaAt(q, 1);
  }

  lemma {:induction false} EmDashScansNothing(q: string)
    requires q == "—"
    ensures ScanLiteral(TrimStart(q)).None?
  {
    assert !IsWhitespace(q[0]) && !IsSign(q[0]);
    NoLeadingBlank(q);
    NoMantissaAt(q, 0);
  }

  /** A text that starts with a non-blank is its own `trimStart`. */
  lemma {:induction false} NoLeadingBlank(s: string)
    requires s != [] && !IsWhitespace(s[0])
    ensures TrimStart(s) == s
  {
    assert s[..0] == [];
    TrimStartUnique(s, 0);
  }

  /** No number literal starts at a character other than a digit, a point
      or the `I` of `Infinity`. */
  lemma {:induction false} NoMantissaAt(s: string, k: nat)
    requires k < |s| && !IsDigit(s[k]) && s[k] != '.' && s[k] != 'I'
    ensures MantissaEnd(s, k) == k
    ensures !StartsWithAt(s, k, "Infinity")
  {
    assert DigitRun(s, k) == 0;
    if k + 8 <= |s| {
      assert s[k..k + 8][0] == s[k];
    }
  }

  /** A text with a character other than a dash in it is no placeholder. */
  lemma {:induction false} NotPlaceholder(x: string, c: char, y: string)
    requires c != '—' && c != '-'
    ensures !IsPlaceholder(x + [c] + y)
  {
    var t := x + [c] + y;
    assert t[|x|] == c;
  }

  /** How `parseLevel` reads a text cell without a slash: its trimmed
      text with the first comma made a point, handed to `parseFloat`. */
  lemma {:induction false} LevelWithoutSlash(s: string, nums: Numerics)
    requires '/' !in s
    ensures ParseLevel(Text(s), nums) == FiniteOrZero(ParseFloat(ReplaceFirst(Trim(s), ',', '.'), nums))
  {
    var t := Trim(s);
    TrimKeepsAbsent(s, '/');
    if IsPlaceholder(t) {
      PlaceholderIsNaN(t, nums);
      assert ReplaceFirst(t, ',', '.') == t;
    } else {
      PreprocessWithoutSlash(s, t);
      LevelOfText(s, ReplaceFirst(t, ',', '.'), nums);
    }
  }

  lemma {:induction false} PreprocessWithoutSlash(s: string, t: string)
    requires t == Trim(s) && '/' !in t && !IsPlaceholder(t)
    ensures Preprocess(s) == Some(ReplaceFirst(t, ',', '.'))
  {
  }

  lemma {:induction false} PreprocessWithSlash(s: string, t: string, cut: string)
    requires t == Trim(s) && '/' in t && !IsPlaceholder(t)
    requires cut == Trim(BeforeFirst(t, '/'))
    ensures Preprocess(s) == Some(ReplaceFirst(cut, ',', '.'))
  {
  }

  lemma {:induction false} LevelOfText(s: string, p: string, nums: Numerics)
    requires Preprocess(s) == Some(p)
    ensures ParseLevel(Text(s), nums) == FiniteOrZero(ParseFloat(p, nums))
  {
    var c := Text(s);
    assert c.text == s;
    var r := ParseLevel(c, nums);
    assert r == match Preprocess(s) case None => 0.0 case Some(q) => FiniteOrZero(ParseFloat(q, nums));
  }

  /** Only the text before the first slash counts: a cell `a/b` gives the
      level the cell `a` would give, whatever `b` is. This holds even when
      `a` is a placeholder or blank, because `parseFloat` finds no number
      in a placeholder either. */
  lemma {:induction false} SlashCut(a: string, b: string, nums: Numerics)
    requires '/' !in a
    ensures ParseLevel(Text(a + "/" + b), nums) == ParseLevel(Text(a), nums)
  {
    var ta, tb := TrimStart(a), TrimEnd(b);
    var s := a + "/" + b;
    var t := ta + "/" + tb;
    TrimAroundMiddle(a, '/', b);
    MiddleIn(ta, '/', tb);
    NotPlaceholder(ta, '/', tb);
    BeforeFirstOfJoin(ta, '/', tb);
    TrimAfterTrimStart(a);
    PreprocessWithSlash(s, t, Trim(a));
    LevelOfText(s, ReplaceFirst(Trim(a), ',', '.'), nums);
    LevelWithoutSlash(a, nums);
  }

  lemma {:induction false} MiddleIn(x: string, c: char, y: string)
    ensures c in x + [c] + y
  {
    assert (x + [c] + y)[|x|] == c;
  }

  /** A comma in a cell reads as a decimal point: with no other comma and
      no slash, `a,b` and `a.b` give the same level. */
  lemma {:induction false} CommaIsDecimalPoint(a: string, b: string, nums: Numerics)
    requires ',' !in a && ',' !in b && '/' !in a && '/' !in b
    ensures ParseLevel(Text(a + "," + b), nums) == ParseLevel(Text(a + "." + b), nums)
  {
    var ta, tb := TrimStart(a), TrimEnd(b);
    var p := ta + "." + tb;
    CommaCellText(a, b);
    LevelWithoutSlash(a + "," + b, nums);
    PointCellText(a, b);
    LevelWithoutSlash(a + "." + b, nums);
  }

  /** The preprocessed text of the cell `a,b`. */
  lemma {:induction false} CommaCellText(a: string, b: string)
    requires ',' !in a && '/' !in a && '/' !in b
    ensures '/' !in a + "," + b
    ensures ReplaceFirst(Trim(a + "," + b), ',', '.') == TrimStart(a) + "." + TrimEnd(b)
  {
    var ta, tb := TrimStart(a), TrimEnd(b);
    TrimAroundMiddle(a, ',', b);
    ReplaceFirstAt(ta, ',', '.', tb);
  }

  /** The preprocessed text of the cell `a.b`. */
  lemma {:induction false} PointCellText(a: string, b: string)
    requires ',' !in a && ',' !in b && '/' !in a && '/' !in b
    ensures '/' !in a + "." + b
    ensures ReplaceFirst(Trim(a + "." + b), ',', '.') == TrimStart(a) + "." + TrimEnd(b)
  {
    TrimAroundMiddle(a, '.', b);
    TrimKeepsAbsent(a + "." + b, ',');
  }

  /** Only the first comma becomes a point; the next one, left as it is,
      ends the number: `a,b,z` gives the level of `a.b`. */
  lemma {:induction false} SecondCommaEndsNumber(a: string, b: string, z: string, nums: Numerics)
    requires ',' !in a && ',' !in b && '/' !in a && '/' !in b && '/' !in z
    ensures ParseLevel(Text(a + "," + b + "," + z), nums) == ParseLevel(Text(a + "." + b), nums)
  {
    var ta, tb := TrimStart(a), TrimEnd(b);
    var head, post := ta + "." + tb, b[|tb|..];
    assert ParseLevel(Text(a + "," + b + "," + z), nums) == FiniteOrZero(ParseFloat(head + post, nums)) by {
      TwoCommaLevel(a, b, z, nums);
      SplitTrailingBlanks(ta, b, tb);
    }
    assert ParseLevel(Text(a + "." + b), nums) == FiniteOrZero(ParseFloat(head, nums)) by {
      PointCellText(a, b);
      LevelWithoutSlash(a + "." + b, nums);
    }
    assert ParseFloat(head + post, nums) == ParseFloat(head, nums) by {
      SplitTrailingBlanks(ta, b, tb);
      StartsNonBlank(ta, '.', tb);
      TrailingBlanksIgnored(head, post, nums);
    }
  }

  /** The cell `a,b,z` reads as `parseFloat` of its text up to the second comma. */
  lemma {:induction false} TwoCommaLevel(a: string, b: string, z: string, nums: Numerics)
    requires ',' !in a && '/' !in a && '/' !in b && '/' !in z
    ensures ParseLevel(Text(a + "," + b + "," + z), nums) == FiniteOrZero(ParseFloat(TrimStart(a) + "." + b, nums))
  {
    var ta, tz := TrimStart(a), TrimEnd(z);
    TwoCommaCellText(a, b, z);
    LevelWithoutSlash(a + "," + b + "," + z, nums);
    StartsNonBlank(ta, '.', b);
    CommaIsNotLiteral();
    ParseFloatIgnoresTail(ta + "." + b, "," + tz, nums);
  }

  // The three small facts below are kept apart from the proofs that use
  // them so that those proofs do not see the text functions' definitions.

  lemma CommaIsNotLiteral()
    ensures !IsLiteralChar(',')
  {
  }

  lemma {:induction false} SplitTrailingBlanks(x: string, b: string, tb: string)
    requires tb == TrimEnd(b)
    ensures x + "." + b == (x + "." + tb) + b[|tb|..]
    ensures AllWhitespace(b[|tb|..])
  {
    assert b == tb + b[|tb|..];
  }

  /** The preprocessed text of the cell `a,b,z`. */
  lemma {:induction false} TwoCommaCellText(a: string, b: string, z: string)
    requires ',' !in a && '/' !in a && '/' !in b && '/' !in z
    ensures '/' !in a + "," + b + "," + z
    ensures ReplaceFirst(Trim(a + "," + b + "," + z), ',', '.') == (TrimStart(a) + "." + b) + ("," + TrimEnd(z))
  {
    var ta, tz := TrimStart(a), TrimEnd(z);
    var rest := b + [','] + tz;
    TwoCommaTrim(a, b, z);
    TrimKeepsAbsent(a, ',');
    ReplaceFirstAt(ta, ',', '.', rest);
    PointThenComma(ta, b, tz);
    NoSlashInTwoCommas(a, b, z);
  }

  lemma NoSlashInTwoCommas(a: string, b: string, z: string)
    requires '/' !in a && '/' !in b && '/' !in z
    ensures '/' !in a + "," + b + "," + z
  {
  }

  lemma {:induction false} TwoCommaTrim(a: string, b: string, z: string)
    ensures Trim(a + "," + b + "," + z) == TrimStart(a) + [','] + (b + [','] + TrimEnd(z))
  {
    assert a + "," + b + "," + z == a + [','] + (b + [','] + z);
    TrimAroundMiddle(a, ',', b + [','] + z);
    TrimEndKeepsFront(b, ',', z);
  }

  lemma PointThenComma(x: string, b: string, y: string)
    ensures x + ['.'] + (b + [','] + y) == (x + "." + b) + ("," + y)
  {
  }

  /** Whitespace after the number does not change what `parseFloat` reads. */
  lemma {:induction false} TrailingBlanksIgnored(head: string, post: string, nums: Numerics)
    requires TrimStart(head) != [] && AllWhitespace(post)
    ensures ParseFloat(head + post, nums) == ParseFloat(head, nums)
  {
    if post != [] {
      WhitespaceIsNotLiteral(post[0]);
      ParseFloatIgnoresTail(head, post, nums);
    } else {
      assert head + post == head;
    }
  }

  /** A text whose first non-dropped character is not whitespace is not
      blank after `trimStart`. */
  lemma {:induction false} StartsNonBlank(x: string, c: char, y: string)
    requires x == [] || !IsWhitespace(x[0])
    requires !IsWhitespace(c)
    ensures TrimStart(x + [c] + y) != []
  {
    var s := x + [c] + y;
    assert s[0] == if x == [] then c else x[0];
    TrimStartUnique(s, 0);
  }

  // ---------------------------------------------------------------------
  // Properties of the ticker alias

  /** The alias changes a ticker exactly when the table lists it. */
  lemma {:induction false} MapTickerChangesOnlyAliases(t: string)
    ensures MapTicker(t) != t <==> t in Aliases
  {
  }

  /** Aliasing twice is aliasing once: no alias is itself aliased. */
  lemma {:induction false} MapTickerIdempotent(t: string)
    ensures MapTicker(MapTicker(t)) == MapTicker(t)
  {
  }

  // ---------------------------------------------------------------------
  // The alias lookup as written

  /** The properties every plain JavaScript object inherits from
      `Object.prototype`. */
  const ObjectPrototypeMembers: set<string> := {
    "constructor", "hasOwnProperty", "isPrototypeOf", "propertyIsEnumerable",
    "toLocaleString", "toString", "valueOf", "__proto__",
    "__defineGetter__", "__defineSetter__", "__lookupGetter__", "__lookupSetter__"
  }

  /** The value `map[excelTicker] ?? excelTicker` yields: a string, or the
      inherited member (a function, or `Object.prototype` itself for
      `__proto__`) named by the ticker. */
  datatype TickerValue = Str(text: string) | Member(name: string)

  /** `mapExcelTickerToPine` as written: the table is an object literal, so
      the lookup also finds the members it inherits, and `??` keeps them
      because they are neither null nor undefined. */
  function MapTickerAsWritten(t: string): (r: TickerValue)
    ensures r.Member? <==> t in ObjectPrototypeMembers
    ensures r.Str? ==> r.text == MapTicker(t)
  {
    if t == "" then Str(t)
    else if t in Aliases then Str(Aliases[t])
    else if t in ObjectPrototypeMembers then Member(t)
    else Str(t)
  }

  /** The text `${t}` puts in the script for the value `mapExcelTickerToPine`
      returns on `t`: the intended alias, except on the name of an
      inherited member, where it is that member's `String`. */
  function TickerText(t: string, nums: Numerics): (r: string)
    ensures t !in ObjectPrototypeMembers ==> r == MapTicker(t)
    ensures t in ObjectPrototypeMembers ==> r == nums.member(t)
  {
    match MapTickerAsWritten(t)
    case Str(x) => x
    case Member(n) => nums.member(n)
  }

  /** As written, a ticker cell holding the name of an inherited member
      (such as "constructor") is not returned unchanged, unlike every
      other unaliased ticker. */
  lemma {:induction false} AsWrittenLeaksPrototype(t: string)
    requires t in ObjectPrototypeMembers
    ensures MapTicker(t) == t
    ensures MapTickerAsWritten(t) != Str(MapTicker(t))
  {
  }
}

=== FILE: js_text.dfy ===
/**
 * The three JavaScript string operations the level normaliser applies to a
 * cell's text: `String.prototype.trim`, `split('/')[0]` and
 * `replace(',', '.')` with a string pattern (which replaces only the first
 * occurrence).
 */
module JsText {

  /** The WhiteSpace and LineTerminator code points of ECMA-262 (sections
      12.2 and 12.3): the set that `trim` removes and `parseFloat` skips. */
  predicate IsWhitespace(c: char) {
    || c == '\t' || c == '\U{000B}' || c == '\U{000C}' || c == ' '
    || c == '\U{00A0}' || c == '\U{FEFF}' || c == '\U{1680}'
    || ('\U{2000}' <= c <= '\U{200A}')
    || c == '\U{202F}' || c == '\U{205F}' || c == '\U{3000}'
    || c == '\n' || c == '\r' || c == '\U{2028}' || c == '\U{2029}'
  }

  predicate AllWhitespace(s: string) {
    forall k :: 0 <= k < |s| ==> IsWhitespace(s[k])
  }

  /** `s` with its leading whitespace removed (`String.prototype.trimStart`). */
  function TrimStart(s: string): (r: string)
    ensures |r| <= |s| && r == s[|s| - |r|..]
    ensures AllWhitespace(s[..|s| - |r|])
    ensures r == [] || !IsWhitespace(r[0])
  {
    if |s| > 0 && IsWhitespace(s[0]) then
      var r := TrimStart(s[1..]);
      assert s[1..][|s| - 1 - |r|..] == s[|s| - |r|..];
      assert forall k :: 1 <= k < |s| - |r| ==> s[k] == s[1..][k - 1];
      r
    else
      assert s[..0] == [];
      s
  }

  /** `s` with its trailing whitespace removed (`String.prototype.trimEnd`). */
  function TrimEnd(s: string): (r: string)
    ensures |r| <= |s| && r == s[..|r|]
    ensures AllWhitespace(s[|r|..])
    ensures r == [] || !IsWhitespace(r[|r| - 1])
  {
    if |s| > 0 && IsWhitespace(s[|s| - 1]) then
      var r := TrimEnd(s[..|s| - 1]);
      assert s[..|s| - 1][..|r|] == s[..|r|];
      assert forall k :: |r| <= k < |s| - 1 ==> s[k] == s[..|s| - 1][k];
      r
    else
      assert s[|s|..] == [];
      s
  }

  /** `String.prototype.trim`: the slice of `s` between its leading and its
      trailing whitespace. */
  function Trim(s: string): (r: string)
    ensures |r| <= |TrimStart(s)| <= |s|
    ensures var i := |s| - |TrimStart(s)|;
      && r == s[i..i + |r|]
      && AllWhitespace(s[..i])
      && AllWhitespace(s[i + |r|..])
    ensures r == [] || (!IsWhitespace(r[0]) && !IsWhitespace(r[|r| - 1]))
  {
    var t := TrimStart(s);
    var r := TrimEnd(t);
    assert r == [] ==> AllWhitespace(t);
    r
  }

  /** The text of `s` before the first `c`, or all of `s` when it has no
      `c`: JavaScript's `s.split(c)[0]` for a one-character separator. */
  function BeforeFirst(s: string, c: char): (r: string)
    ensures |r| <= |s| && r == s[..|r|]
    ensures c !in r
    ensures |r| < |s| ==> s[|r|] == c
  {
    if |s| == 0 || s[0] == c then [] else [s[0]] + BeforeFirst(s[1..], c)
  }

  /** `s` with its first `from` replaced by `to`: JavaScript's
      `s.replace(from, to)` with a one-character string pattern. Later
      occurrences are left as they are. */
  function ReplaceFirst(s: string, from: char, to: char): (r: string)
    ensures |r| == |s|
    ensures from !in s ==> r == s
    ensures from in s ==>
      var i := |BeforeFirst(s, from)|;
      i < |s| && r == s[..i] + [to] + s[i + 1..]
  {
    if |s| == 0 then s
    else if s[0] == from then [to] + s[1..]
    else [s[0]] + ReplaceFirst(s[1..], from, to)
  }

  // ---------------------------------------------------------------------
  // Trimming is characterised by where the whitespace ends

  /** Any split of `s` into a whitespace run followed by text that starts
      with a non-whitespace character is the one `TrimStart` finds. */
  lemma {:induction false} TrimStartUnique(s: string, i: nat)
    requires i <= |s| && AllWhitespace(s[..i])
    requires i == |s| || !IsWhitespace(s[i])
    ensures TrimStart(s) == s[i..]
    decreases i
  {
    if i > 0 {
      assert IsWhitespace(s[..i][0]);
      assert s[1..][..i - 1] == s[1..i];
      TrimStartUnique(s[1..], i - 1);
      assert s[1..][i - 1..] == s[i..];
    }
  }

  /** Any split of `s` into text that ends with a non-whitespace character
      followed by a whitespace run is the one `TrimEnd` finds. */
  lemma {:induction false} TrimEndUnique(s: string, j: nat)
    requires j <= |s| && AllWhitespace(s[j..])
    requires j == 0 || !IsWhitespace(s[j - 1])
    ensures TrimEnd(s) == s[..j]
    decreases |s| - j
  {
    if j < |s| {
      var s' := s[..|s| - 1];
      assert IsWhitespace(s[j..][|s| - 1 - j]);
      assert s'[j..] == s[j..|s| - 1];
      TrimEndUnique(s', j);
      assert s'[..j] == s[..j];
    }
  }

  /** `Trim` is the unique slice of `s` that has whitespace, and only
      whitespace, on both sides and starts and ends with non-whitespace. */
  lemma {:induction false} TrimUnique(s: string, i: nat, j: nat)
    requires i <= j <= |s|
    requires AllWhitespace(s[..i]) && AllWhitespace(s[j..])
    requires i == j || (!IsWhitespace(s[i]) && !IsWhitespace(s[j - 1]))
    ensures Trim(s) == s[i..j]
  {
    if i == j {
      AllWhitespaceJoin(s, i);
      TrimStartUnique(s, |s|);
    } else {
      TrimStartUnique(s, i);
      TrimEndOfSuffix(s, i, j);
    }
  }

  lemma {:induction false} AllWhitespaceJoin(s: string, i: nat)
    requires i <= |s| && AllWhitespace(s[..i]) && AllWhitespace(s[i..])
    ensures AllWhitespace(s[..|s|])
  {
    forall k | 0 <= k < |s| ensures IsWhitespace(s[k]) {
      if k < i { assert s[k] == s[..i][k]; } else { assert s[k] == s[i..][k - i]; }
    }
  }

  lemma {:induction false} TrimEndOfSuffix(s: string, i: nat, j: nat)
    requires i < j <= |s| && AllWhitespace(s[j..]) && !IsWhitespace(s[j - 1])
    ensures TrimEnd(s[i..]) == s[i..j]
  {
    var t := s[i..];
    assert t[j - i..] == s[j..];
    TrimEndUnique(t, j - i);
  }

  /** Whitespace around a text that starts and ends with non-whitespace is
      exactly what `trim` removes. */
  lemma {:induction false} TrimSandwich(pre: string, m: string, post: string)
    requires AllWhitespace(pre) && AllWhitespace(post)
    requires m == [] || (!IsWhitespace(m[0]) && !IsWhitespace(m[|m| - 1]))
    ensures Trim(pre + m + post) == m
  {
    var s := pre + m + post;
    var i, j := |pre|, |pre| + |m|;
    assert s[..i] == pre;
    assert s[j..] == post;
    assert s[i..j] == m;
    if m != [] {
      assert s[i] == m[0];
      assert s[j - 1] == m[|m| - 1];
    }
    TrimUnique(s, i, j);
  }

  /** Trimming a text that has a non-whitespace character `c` in it only
      touches the two ends: the middle is kept as it is. */
  lemma {:induction false} TrimAroundMiddle(a: string, c: char, b: string)
    requires !IsWhitespace(c)
    ensures Trim(a + [c] + b) == TrimStart(a) + [c] + TrimEnd(b)
  {
    var lead := a[..|a| - |TrimStart(a)|];
    assert a == lead + TrimStart(a);
    assert AllWhitespace(lead);
    SplitTrailing(b);
    TrimAroundMiddleParts(a, c, b, a[..|a| - |TrimStart(a)|], TrimStart(a), TrimEnd(b), b[|TrimEnd(b)|..]);
  }

  lemma {:induction false} TrimAroundMiddleParts(a: string, c: char, b: string, pre: string, ta: string, tb: string, post: string)
    requires !IsWhitespace(c)
    requires a == pre + ta && b == tb + post
    requires AllWhitespace(pre) && AllWhitespace(post)
    requires ta == [] || !IsWhitespace(ta[0])
    requires tb == [] || !IsWhitespace(tb[|tb| - 1])
    ensures Trim(a + [c] + b) == ta + [c] + tb
  {
    assert a + [c] + b == pre + (ta + [c] + tb) + post;
    EndsOfMiddle(ta, c, tb);
    TrimSandwich(pre, ta + [c] + tb, post);
  }

  lemma {:induction false} SplitTrailing(b: string)
    ensures b == TrimEnd(b) + b[|TrimEnd(b)|..]
    ensures AllWhitespace(b[|TrimEnd(b)|..])
  {
  }

  lemma {:induction false} EndsOfMiddle(ta: string, c: char, tb: string)
    requires !IsWhitespace(c)
    requires ta == [] || !IsWhitespace(ta[0])
    requires tb == [] || !IsWhitespace(tb[|tb| - 1])
    ensures var m := ta + [c] + tb; !IsWhitespace(m[0]) && !IsWhitespace(m[|m| - 1])
  {
    var m := ta + [c] + tb;
    assert m[0] == if ta == [] then c else ta[0];
    assert m[|m| - 1] == if tb == [] then c else tb[|tb| - 1];
  }

  /** Trimming after removing the leading whitespace is trimming. */
  lemma {:induction false} TrimAfterTrimStart(s: string)
    ensures Trim(TrimStart(s)) == Trim(s)
  {
    TrimStartUnique(TrimStart(s), 0);
  }

  /** When `c` does not occur in `a`, the text before the first `c` in
      `a + [c] + b` is `a`, whatever `b` holds. */
  lemma {:induction false} BeforeFirstOfJoin(a: string, c: char, b: string)
    requires c !in a
    ensures BeforeFirst(a + [c] + b, c) == a
  {
    if |a| > 0 {
      assert (a + [c] + b)[1..] == a[1..] + [c] + b;
      BeforeFirstOfJoin(a[1..], c, b);
    }
  }

  /** Text appended after a non-blank text survives `trimStart` untouched. */
  lemma {:induction false} TrimStartAppend(x: string, y: string)
    requires TrimStart(x) != []
    ensures TrimStart(x + y) == TrimStart(x) + y
  {
    var i := |x| - |TrimStart(x)|;
    var s := x + y;
    assert s[..i] == x[..i];
    assert s[i] == TrimStart(x)[0];
    TrimStartUnique(s, i);
    assert s[i..] == x[i..] + y;
  }

  /** `trimEnd` of a text with a non-whitespace character `c` in it keeps
      everything up to and including `c`. */
  lemma {:induction false} TrimEndKeepsFront(w: string, c: char, z: string)
    requires !IsWhitespace(c)
    ensures TrimEnd(w + [c] + z) == w + [c] + TrimEnd(z)
  {
    var s := w + [c] + z;
    var tz := TrimEnd(z);
    var j := |w| + 1 + |tz|;
    assert s[j..] == z[|tz|..];
    assert s[j - 1] == if tz == [] then c else tz[|tz| - 1];
    TrimEndUnique(s, j);
    assert s[..j] == w + [c] + tz;
  }

  /** Replacing the first `from` of a text whose first `from` follows `p`. */
  lemma {:induction false} ReplaceFirstAt(p: string, from: char, to: char, q: string)
    requires from !in p
    ensures ReplaceFirst(p + [from] + q, from, to) == p + [to] + q
  {
    var s := p + [from] + q;
    BeforeFirstOfJoin(p, from, q);
    assert s[..|p|] == p && s[|p| + 1..] == q;
  }

  /** Replacing a character by a non-whitespace one keeps a text's ends
      non-whitespace. */
  lemma {:induction false} ReplaceFirstKeepsEnds(s: string, from: char, to: char)
    requires !IsWhitespace(to)
    requires s == [] || (!IsWhitespace(s[0]) && !IsWhitespace(s[|s| - 1]))
    ensures var r := ReplaceFirst(s, from, to);
      r == [] || (!IsWhitespace(r[0]) && !IsWhitespace(r[|r| - 1]))
  {
    if from in s {
      var i := |BeforeFirst(s, from)|;
      var r := ReplaceFirst(s, from, to);
      assert r[0] == if i == 0 then to else s[0];
      assert r[|r| - 1] == if i == |s| - 1 then to else s[|s| - 1];
    }
  }

  /** Every character of `Trim(s)` is a character of `s`. */
  lemma {:induction false} TrimKeepsAbsent(s: string, c: char)
    requires c !in s
    ensures c !in Trim(s)
  {
  }

  /** Replacing a character `from` by `to` adds no character other than `to`. */
  lemma {:induction false} ReplaceFirstKeepsAbsent(s: string, from: char, to: char, c: char)
    requires c !in s && c != to
    ensures c !in ReplaceFirst(s, from, to)
  {
  }
}

=== FILE: numbers.dfy ===
/**
 * JavaScript number values and `parseFloat` (section 21.1.2.12 of
 * ECMA-262). The scan for the longest prefix that is a StrDecimalLiteral is
 * modelled exactly; rounding the decimal literal it finds to the nearest
 * double, and formatting a double as text, are left as parameters
 * (`Numerics`), because the model reasons about reals, not IEEE-754 values.
 */
module Numbers {
  import opened Wrappers
  import opened JsText

  /** A JavaScript number, as far as this model tells them apart. */
  datatype JsNumber = Finite(value: real) | NaN | Infinity(negative: bool)

  /** `Number.isFinite(n) ? n : 0.0`, the guard both branches of the level
      normaliser end with. */
  function FiniteOrZero(n: JsNumber): real {
    if n.Finite? then n.value else 0.0
  }

  /** JavaScript truthiness of a number: zero and NaN are falsy. */
  predicate Truthy(n: JsNumber) {
    match n
    case Finite(v) => v != 0.0
    case NaN => false
    case Infinity(_) => true
  }

  /** The two engine operations the model does not define: `toDouble` rounds
      a decimal literal (such as "-12.5e3") to a double, None when the
      result overflows to an infinity; `show` is `Number.prototype.toString`
      on a finite double; `member` is `String` of the function (or, for
      "__proto__", the object) that a plain object inherits from
      `Object.prototype` under the given name. */
  datatype Numerics = Numerics(toDouble: string -> Option<real>, show: real -> string, member: string -> string)

  /** `String(n)`. */
  function NumberToString(n: JsNumber, nums: Numerics): string {
    match n
    case Finite(v) => nums.show(v)
    case NaN => "NaN"
    case Infinity(negative) => if negative then "-Infinity" else "Infinity"
  }

  // ---------------------------------------------------------------------
  // The StrDecimalLiteral grammar (section 7.1.4.1 of ECMA-262), without
  // numeric separators, written as predicates on a whole text

  predicate IsDigit(c: char) {
    '0' <= c <= '9'
  }

  predicate IsSign(c: char) {
    c == '+' || c == '-'
  }

  predicate AllDigits(x: string) {
    forall k :: 0 <= k < |x| ==> IsDigit(x[k])
  }

  /** DecimalDigits */
  predicate IsDecimalDigits(x: string) {
    |x| > 0 && AllDigits(x)
  }

  /** SignedInteger */
  predicate IsSignedInteger(x: string) {
    || IsDecimalDigits(x)
    || (|x| > 1 && IsSign(x[0]) && IsDecimalDigits(x[1..]))
  }

  /** ExponentPart */
  predicate IsExponentPart(x: string) {
    |x| > 1 && (x[0] == 'e' || x[0] == 'E') && IsSignedInteger(x[1..])
  }

  /** The part of StrUnsignedDecimalLiteral before the exponent:
      `DecimalDigits`, `DecimalDigits .`, `DecimalDigits . DecimalDigits`
      or `. DecimalDigits`. */
  predicate IsMantissa(x: string) {
    || IsDecimalDigits(x)
    || (|x| > 1 && exists d :: 0 <= d < |x| && x[d] == '.' && AllDigits(x[..d]) && AllDigits(x[d + 1..]))
  }

  /** StrUnsignedDecimalLiteral */
  predicate IsUnsignedLiteral(x: string) {
    || x == "Infinity"
    || exists e :: 0 < e <= |x| && IsMantissa(x[..e]) && (e == |x| || IsExponentPart(x[e..]))
  }

  /** StrDecimalLiteral */
  predicate IsStrDecimalLiteral(x: string) {
    || IsUnsignedLiteral(x)
    || (|x| > 0 && IsSign(x[0]) && IsUnsignedLiteral(x[1..]))
  }

  /** Every character a StrDecimalLiteral can contain. */
  predicate IsLiteralChar(c: char) {
    IsDigit(c) || IsSign(c) || c == '.' || c == 'e' || c == 'E'
    || c == 'I' || c == 'n' || c == 'f' || c == 'i' || c == 't' || c == 'y'
  }

  // ---------------------------------------------------------------------
  // The scanner

  /** The number of consecutive decimal digits in `s` from position `i`. */
  function DigitRun(s: string, i: nat): (n: nat)
    requires i <= |s|
    ensures i + n <= |s|
    ensures AllDigits(s[i..i + n])
    ensures i + n == |s| || !IsDigit(s[i + n])
    decreases |s| - i
  {
    if i < |s| && IsDigit(s[i]) then
      var n := 1 + DigitRun(s, i + 1);
      assert s[i..i + n] == [s[i]] + s[i + 1..i + n];
      n
    else 0
  }

  /** The length of the ExponentPart that starts at position `m` of `s`, or
      0 when there is none. */
  function ExponentLength(s: string, m: nat): (n: nat)
    requires m <= |s|
    ensures m + n <= |s|
    ensures n > 0 ==> IsExponentPart(s[m..m + n])
  {
    if m < |s| && (s[m] == 'e' || s[m] == 'E') then
      var j := if m + 1 < |s| && IsSign(s[m + 1]) then m + 2 else m + 1;
      var d := DigitRun(s, j);
      if d > 0 then
        assert s[m..j + d][1..] == s[m + 1..j + d];
        assert j == m + 2 ==> s[m + 1..j + d][1..] == s[j..j + d];
        j + d - m
      else 0
    else 0
  }

  predicate StartsWithAt(s: string, k: nat, word: string) {
    k + |word| <= |s| && s[k..k + |word|] == word
  }

  /** Where the mantissa (`DecimalDigits`, `DecimalDigits .`,
      `DecimalDigits . DecimalDigits` or `. DecimalDigits`) that starts at
      position `k` of `s` ends; `k` itself when there is none. */
  function MantissaEnd(s: string, k: nat): (me: nat)
    requires k <= |s|
    ensures k <= me <= |s|
  {
    var i := k + DigitRun(s, k);
    if i < |s| && s[i] == '.' then
      var f := DigitRun(s, i + 1);
      if i == k && f == 0 then k else i + 1 + f
    else i
  }

  /** The longest prefix of `s` that is a StrDecimalLiteral, None when no
      prefix is one. */
  function ScanLiteral(s: string): (r: Option<string>)
    ensures r.Some? ==> 0 < |r.value| <= |s| && r.value == s[..|r.value|]
  {
    var k := if |s| > 0 && IsSign(s[0]) then 1 else 0;
    if StartsWithAt(s, k, "Infinity") then Some(s[..k + 8])
    else
      var me := MantissaEnd(s, k);
      if me == k then None else Some(s[..me + ExponentLength(s, me)])
  }

  /** The three spellings of an infinity a StrDecimalLiteral can have. */
  predicate IsInfinityText(t: string) {
    t == "Infinity" || t == "+Infinity" || t == "-Infinity"
  }

  /** `parseFloat(s)`: skip leading whitespace, take the longest
      StrDecimalLiteral prefix, NaN when there is none. */
  function ParseFloat(s: string, nums: Numerics): JsNumber {
    match ScanLiteral(TrimStart(s))
    case None => NaN
    case Some(t) =>
      if IsInfinityText(t) then Infinity(t[0] == '-')
      else
        match nums.toDouble(t)
        case Some(v) => Finite(v)
        case None => Infinity(t[0] == '-')
  }

  // ---------------------------------------------------------------------
  // The scanner finds exactly the longest StrDecimalLiteral prefix

  /** The prefix `ScanLiteral` returns is a StrDecimalLiteral, and no longer
      prefix of `s` is one; when it returns None, no prefix is one. */
  lemma {:induction false} ScanLiteralIsLongest(s: string)
    ensures ScanLiteral(s).Some? ==> IsStrDecimalLiteral(ScanLiteral(s).value)
    ensures forall m :: 0 < m <= |s| && IsStrDecimalLiteral(s[..m]) ==>
      ScanLiteral(s).Some? && m <= |ScanLiteral(s).value|
  {
    if ScanLiteral(s).Some? {
      ScanLiteralSound(s);
    }
    forall m | 0 < m <= |s| && IsStrDecimalLiteral(s[..m])
      ensures ScanLiteral(s).Some? && m <= |ScanLiteral(s).value|
    {
      ScanLiteralMaximal(s, m);
    }
  }

  lemma {:induction false} ScanLiteralSound(s: string)
    requires ScanLiteral(s).Some?
    ensures IsStrDecimalLiteral(ScanLiteral(s).value)
  {
    var k := if |s| > 0 && IsSign(s[0]) then 1 else 0;
    if StartsWithAt(s, k, "Infinity") {
      InfinitySound(s, k);
    } else {
      var me := MantissaEnd(s, k);
      MantissaEndSound(s, k);
      SignedLiteral(s, k, me, ExponentLength(s, me));
    }
  }

  lemma {:induction false} InfinitySound(s: string, k: nat)
    requires k == if |s| > 0 && IsSign(s[0]) then 1 else 0
    requires StartsWithAt(s, k, "Infinity")
    ensures IsStrDecimalLiteral(s[..k + 8])
  {
    var t := s[..k + 8];
    assert t[k..] == "Infinity";
    if k == 1 {
      assert IsSign(t[0]);
    }
  }

  lemma {:induction false} SignedLiteral(s: string, k: nat, me: nat, x: nat)
    requires k == if |s| > 0 && IsSign(s[0]) then 1 else 0
    requires k < me && me + x <= |s|
    requires IsMantissa(s[k..me])
    requires x > 0 ==> IsExponentPart(s[me..me + x])
    ensures IsStrDecimalLiteral(s[..me + x])
  {
    var t := s[..me + x];
    var u := t[k..];
    var e := me - k;
    assert u[..e] == s[k..me];
    if x > 0 {
      assert u[e..] == s[me..me + x];
    }
    assert IsUnsignedLiteral(u);
    if k == 1 {
      assert IsSign(t[0]) && t[1..] == u;
    } else {
      assert t == u;
    }
  }

  lemma {:induction false} MantissaEndSound(s: string, k: nat)
    requires k <= |s| && MantissaEnd(s, k) > k
    ensures IsMantissa(s[k..MantissaEnd(s, k)])
  {
    var i := k + DigitRun(s, k);
    if i < |s| && s[i] == '.' {
      MantissaEndAtPoint(s, k, i);
      PointedMantissa(s, k, i, i + 1 + DigitRun(s, i + 1));
    } else {
      assert MantissaEnd(s, k) == i;
    }
  }

  lemma {:induction false} PointedMantissa(s: string, k: nat, i: nat, me: nat)
    requires k <= i < me <= |s| && s[i] == '.' && me - k > 1
    requires AllDigits(s[k..i]) && AllDigits(s[i + 1..me])
    ensures IsMantissa(s[k..me])
  {
    var x := s[k..me];
    var d := i - k;
    assert x[d] == '.';
    assert x[..d] == s[k..i];
    assert x[d + 1..] == s[i + 1..me];
  }

  /** A mantissa at `k` is no longer than the one `MantissaEnd` finds, and
      the scanner's goes further only over digits or a point. */
  lemma {:induction false} MantissaEndMaximal(s: string, k: nat, e: nat)
    requires k + e <= |s| && 0 < e && IsMantissa(s[k..k + e])
    ensures MantissaEnd(s, k) >= k + e
    ensures MantissaEnd(s, k) > k + e ==> IsDigit(s[k + e]) || s[k + e] == '.'
  {
    var x := s[k..k + e];
    if IsDecimalDigits(x) {
      DigitsMaximal(s, k, e);
    } else {
      var d :| 0 <= d < |x| && x[d] == '.' && AllDigits(x[..d]) && AllDigits(x[d + 1..]);
      assert x[..d] == s[k..k + d];
      assert x[d + 1..] == s[k + d + 1..k + e];
      PointedMaximal(s, k, d, e);
    }
  }

  lemma {:induction false} DigitsMaximal(s: string, k: nat, e: nat)
    requires k + e <= |s| && 0 < e && AllDigits(s[k..k + e])
    ensures MantissaEnd(s, k) >= k + e
    ensures MantissaEnd(s, k) > k + e ==> IsDigit(s[k + e]) || s[k + e] == '.'
  {
    var i := k + DigitRun(s, k);
    DigitRunCovers(s, k, e);
    if k + e < i {
      assert s[k + e] == s[k..i][e];
    }
  }

  lemma {:induction false} PointedMaximal(s: string, k: nat, d: nat, e: nat)
    requires k + d < k + e <= |s| && 1 < e
    requires s[k + d] == '.' && AllDigits(s[k..k + d]) && AllDigits(s[k + d + 1..k + e])
    ensures MantissaEnd(s, k) >= k + e
    ensures MantissaEnd(s, k) > k + e ==> IsDigit(s[k + e]) || s[k + e] == '.'
  {
    DigitRunStopsAt(s, k, d);
    var i := k + d;
    DigitRunCovers(s, i + 1, e - d - 1);
    var f := DigitRun(s, i + 1);
    MantissaEndAtPoint(s, k, i);
    if k + e < i + 1 + f {
      DigitRunDigit(s, i + 1, k + e);
    }
  }

  /** A run of digits followed by a non-digit is exactly the run counted. */
  lemma {:induction false} DigitRunStopsAt(s: string, i: nat, d: nat)
    requires i + d < |s| && AllDigits(s[i..i + d]) && !IsDigit(s[i + d])
    ensures DigitRun(s, i) == d
  {
    DigitRunCovers(s, i, d);
    var n := DigitRun(s, i);
    if n > d {
      DigitRunDigit(s, i, i + d);
      assert false;
    }
  }

  /** Every position inside the counted run holds a digit. */
  lemma {:induction false} DigitRunDigit(s: string, i: nat, q: nat)
    requires i <= q < |s| && q < i + DigitRun(s, i)
    ensures IsDigit(s[q])
  {
    assert s[q] == s[i..i + DigitRun(s, i)][q - i];
  }

  lemma {:induction false} MantissaEndAtPoint(s: string, k: nat, i: nat)
    requires k <= |s| && i == k + DigitRun(s, k) && i < |s| && s[i] == '.'
    requires i > k || DigitRun(s, i + 1) > 0
    ensures MantissaEnd(s, k) == i + 1 + DigitRun(s, i + 1)
  {
  }

  /** An unsigned literal starts with a digit, a point, or is "Infinity". */
  lemma {:induction false} UnsignedLiteralStart(x: string)
    requires IsUnsignedLiteral(x)
    ensures |x| > 0
    ensures x != "Infinity" ==> IsDigit(x[0]) || x[0] == '.'
  {
    if x != "Infinity" {
      var e :| 0 < e <= |x| && IsMantissa(x[..e]) && (e == |x| || IsExponentPart(x[e..]));
      var y := x[..e];
      assert y[0] == x[0];
      if !IsDecimalDigits(y) {
        var d :| 0 <= d < |y| && y[d] == '.' && AllDigits(y[..d]) && AllDigits(y[d + 1..]);
        if d > 0 {
          assert y[..d][0] == y[0];
        }
      }
    }
  }

  /** A run of digits at `i` is no longer than the one `DigitRun` counts. */
  lemma {:induction false} DigitRunCovers(s: string, i: nat, e: nat)
    requires i + e <= |s| && AllDigits(s[i..i + e])
    ensures DigitRun(s, i) >= e
  {
  }

  /** An ExponentPart at `j` is no longer than the one `ExponentLength` finds. */
  lemma {:induction false} ExponentCovers(s: string, j: nat, m: nat)
    requires j < m <= |s| && IsExponentPart(s[j..m])
    ensures ExponentLength(s, j) >= m - j
  {
    var x := s[j..m];
    assert x[0] == s[j];
    assert x[1] == s[j + 1];
    if IsDecimalDigits(x[1..]) {
      assert x[1..] == s[j + 1..m];
      assert x[1..][0] == s[j + 1];
      DigitRunCovers(s, j + 1, m - j - 1);
    } else {
      assert x[1..][1..] == s[j + 2..m];
      DigitRunCovers(s, j + 2, m - j - 2);
    }
  }

  /** The unsigned part of a literal prefix of `s` starts where the
      scanner's does: after the sign of `s`, if any. */
  lemma {:induction false} UnsignedPart(s: string, m: nat) returns (k: nat)
    requires 0 < m <= |s| && IsStrDecimalLiteral(s[..m])
    ensures k == if |s| > 0 && IsSign(s[0]) then 1 else 0
    ensures k <= m && IsUnsignedLiteral(s[k..m])
  {
    var p := s[..m];
    k := if |s| > 0 && IsSign(s[0]) then 1 else 0;
    if IsUnsignedLiteral(p) {
      UnsignedLiteralStart(p);
      assert p[0] == s[0];
      assert k == 0 && s[k..m] == p;
    } else {
      assert p[0] == s[0];
      assert s[k..m] == p[1..];
    }
  }

  lemma {:induction false} ScanLiteralMaximal(s: string, m: nat)
    requires 0 < m <= |s| && IsStrDecimalLiteral(s[..m])
    ensures ScanLiteral(s).Some? && m <= |ScanLiteral(s).value|
  {
    var k := UnsignedPart(s, m);
    var u := s[k..m];
    if !StartsWithAt(s, k, "Infinity") {
      var e :| 0 < e <= |u| && IsMantissa(u[..e]) && (e == |u| || IsExponentPart(u[e..]));
      assert u[..e] == s[k..k + e];
      if e < |u| {
        assert u[e..] == s[k + e..m];
      }
      DecimalMaximal(s, k, e, m);
    } else {
      InfinityMaximal(s, k, m);
    }
  }

  lemma {:induction false} InfinityMaximal(s: string, k: nat, m: nat)
    requires k <= m <= |s| && StartsWithAt(s, k, "Infinity") && IsUnsignedLiteral(s[k..m])
    ensures m <= k + 8
  {
    var u := s[k..m];
    UnsignedLiteralStart(u);
    assert u[0] == s[k..k + 8][0];
  }

  lemma {:induction false} DecimalMaximal(s: string, k: nat, e: nat, m: nat)
    requires k == if |s| > 0 && IsSign(s[0]) then 1 else 0
    requires !StartsWithAt(s, k, "Infinity")
    requires 0 < e && k + e <= m <= |s| && IsMantissa(s[k..k + e])
    requires k + e == m || IsExponentPart(s[k + e..m])
    ensures ScanLiteral(s).Some? && m <= |ScanLiteral(s).value|
  {
    MantissaEndMaximal(s, k, e);
    var me := MantissaEnd(s, k);
    if k + e < m {
      assert s[k + e] == s[k + e..m][0];
      ExponentCovers(s, me, m);
    }
  }

  // ---------------------------------------------------------------------
  // Consequences: what follows the literal does not matter

  predicate AllLiteralChars(x: string) {
    forall q :: 0 <= q < |x| ==> IsLiteralChar(x[q])
  }

  lemma {:induction false} LiteralChars(p: string)
    requires IsStrDecimalLiteral(p)
    ensures AllLiteralChars(p)
  {
    if IsUnsignedLiteral(p) {
      UnsignedLiteralChars(p);
    } else {
      UnsignedLiteralChars(p[1..]);
      forall q | 0 < q < |p| ensures IsLiteralChar(p[q]) {
        assert p[q] == p[1..][q - 1];
      }
    }
  }

  lemma {:induction false} UnsignedLiteralChars(u: string)
    requires IsUnsignedLiteral(u)
    ensures AllLiteralChars(u)
  {
    if u != "Infinity" {
      var e :| 0 < e <= |u| && IsMantissa(u[..e]) && (e == |u| || IsExponentPart(u[e..]));
      MantissaChars(u[..e]);
      if e < |u| {
        ExponentChars(u[e..]);
      }
      forall q | 0 <= q < |u| ensures IsLiteralChar(u[q]) {
        if q < e { assert u[q] == u[..e][q]; } else { assert u[q] == u[e..][q - e]; }
      }
    }
  }

  lemma {:induction false} MantissaChars(x: string)
    requires IsMantissa(x)
    ensures AllLiteralChars(x)
  {
    if !IsDecimalDigits(x) {
      var d :| 0 <= d < |x| && x[d] == '.' && AllDigits(x[..d]) && AllDigits(x[d + 1..]);
      forall q | 0 <= q < |x| ensures IsLiteralChar(x[q]) {
        if q < d { assert x[q] == x[..d][q]; }
        else if q > d { assert x[q] == x[d + 1..][q - d - 1]; }
      }
    }
  }

  lemma {:induction false} ExponentChars(x: string)
    requires IsExponentPart(x)
    ensures AllLiteralChars(x)
  {
    var y := x[1..];
    forall q | 0 <= q < |x| ensures IsLiteralChar(x[q]) {
      if q > 0 {
        assert x[q] == y[q - 1];
        if !IsDecimalDigits(y) && q > 1 {
          assert y[q - 1] == y[1..][q - 2];
        }
      }
    }
  }

  /** Characters that cannot occur in a literal end the scan: appending
      text that starts with one does not change what `ScanLiteral` finds. */
  lemma {:induction false} ScanIgnoresTail(x: string, y: string)
    requires |y| > 0 && !IsLiteralChar(y[0])
    ensures ScanLiteral(x + y) == ScanLiteral(x)
  {
    var s := x + y;
    if ScanLiteral(s).Some? {
      var t := ScanWithinHead(x, y);
      ScanLiteralMaximal(x, |t|);
      var t' := ScanLiteral(x).value;
      ScanLiteralSound(x);
      assert t' == s[..|t'|];
      ScanLiteralMaximal(s, |t'|);
    } else if ScanLiteral(x).Some? {
      var t' := ScanLiteral(x).value;
      ScanLiteralSound(x);
      assert t' == s[..|t'|];
      ScanLiteralMaximal(s, |t'|);
    }
  }

  /** A literal prefix of `x + y` lies within `x` when `y` starts with a
      character no literal contains. */
  lemma {:induction false} ScanWithinHead(x: string, y: string) returns (t: string)
    requires |y| > 0 && !IsLiteralChar(y[0])
    requires ScanLiteral(x + y).Some?
    ensures t == ScanLiteral(x + y).value
    ensures 0 < |t| <= |x| && t == x[..|t|] && IsStrDecimalLiteral(t)
  {
    t := ScanLiteral(x + y).value;
    ScanLiteralSound(x + y);
    LiteralChars(t);
    if |t| > |x| {
      TailCharInside(t, x, y);
      assert false;
    }
    assert t == x[..|t|];
  }

  lemma {:induction false} TailCharInside(t: string, x: string, y: string)
    requires |y| > 0 && !IsLiteralChar(y[0])
    requires |x| < |t| <= |x + y| && t == (x + y)[..|t|]
    ensures !AllLiteralChars(t)
  {
    assert t[|x|] == y[0];
  }

  /** `parseFloat` ignores everything from the first character that cannot
      continue a number literal. */
  lemma {:induction false} ParseFloatIgnoresTail(x: string, y: string, nums: Numerics)
    requires TrimStart(x) != []
    requires |y| > 0 && !IsLiteralChar(y[0])
    ensures ParseFloat(x + y, nums) == ParseFloat(x, nums)
  {
    TrimStartAppend(x, y);
    ScanIgnoresTail(TrimStart(x), y);
  }

  /** No whitespace character can occur in a number literal. */
  lemma {:induction false} WhitespaceIsNotLiteral(c: char)
    requires IsWhitespace(c)
    ensures !IsLiteralChar(c)
  {
  }
}

=== FILE: pine_eval.dfy ===
/**
 * What the generated script does on a chart. The header declares the five
 * levels as persistent variables set to 0 (index.js lines 64-68); each
 * block overwrites all five when the chart's ticker equals its ticker
 * (lines 89-96); the footer plots a level only when it is positive
 * (lines 105-109). The blocks run in order on every bar, so the levels a
 * chart shows are those of the last block for its ticker, and none at all
 * when no block names it.
 *
 * This is what the script does when every ticker stands for itself inside
 * a Pine string literal, that is, holds no `"`, no `\` and no line break.
 * The code writes the ticker between double quotes without escaping it:
 * a `"`, a line break or a trailing `\` gives a script that does not
 * compile and plots nothing, and any other `\` starts an escape, so the
 * literal's value is not the cell's text. `Step` compares the chart with
 * the ticker text as it is.
 *
 * A block assigns the number text `Numerics.show` gives for each level;
 * `Step` assigns the level itself, so the model also takes Pine to read
 * that text back as the same value.
 */
module PineEval {
  import opened Wrappers
  import opened JsText
  import opened Numbers
  import opened Helpers
  import opened Emitter

  /** The header's initial values. */
  const NoLevels: Levels := Levels(0.0, 0.0, 0.0, 0.0, 0.0)

  /** One block: `if ticker == "<e.ticker>"` reassigns all five levels. */
  function Step(cur: Levels, e: Entry, chart: string): Levels {
    if e.ticker == chart then e.levels else cur
  }

  /** The blocks run one after the other, starting from `init`. */
  function Run(es: seq<Entry>, chart: string, init: Levels): Levels {
    if es == [] then init
    else Step(Run(es[..|es| - 1], chart, init), es[|es| - 1], chart)
  }

  /** The position of the last entry for `chart`, if there is one. */
  function LastIndex(es: seq<Entry>, chart: string): (r: Option<nat>)
    ensures r.None? <==> forall k :: 0 <= k < |es| ==> es[k].ticker != chart
    ensures r.Some? ==> r.value < |es| && es[r.value].ticker == chart
    ensures r.Some? ==> forall j :: r.value < j < |es| ==> es[j].ticker != chart
  {
    if es == [] then None
    else if es[|es| - 1].ticker == chart then Some(|es| - 1)
    else
      var r := LastIndex(es[..|es| - 1], chart);
      assert forall k :: 0 <= k < |es| - 1 ==> es[..|es| - 1][k] == es[k];
      r
  }

  /** The levels a chart ends up with are those of the last block for its
      ticker, or the initial ones when no block names it. */
  lemma {:induction false} RunIsLastMatch(es: seq<Entry>, chart: string, init: Levels)
    ensures Run(es, chart, init) == match LastIndex(es, chart)
                                    case None => init
                                    case Some(k) => es[k].levels
    decreases |es|
  {
    if es != [] {
      var n := |es| - 1;
      RunIsLastMatch(es[..n], chart, init);
      if es[n].ticker != chart {
        var r := LastIndex(es[..n], chart);
        if r.Some? {
          assert es[..n][r.value] == es[r.value];
        }
      }
    }
  }

  /** What the footer plots of a level: the level when positive, nothing
      (`na`) otherwise. */
  function Series(level: real): Option<real> {
    if level > 0.0 then Some(level) else None
  }

  /** The five plotted series of a chart. */
  function Plotted(es: seq<Entry>, chart: string): seq<Option<real>> {
    var l := Run(es, chart, NoLevels);
    [Series(l.goal1), Series(l.goal2), Series(l.stop), Series(l.cancel), Series(l.entry)]
  }

  /** The footer's i-th series, for the i-th label of the blocks: a chart
      plots a value there exactly when the last block for its ticker set
      that level to a positive value, and the value plotted is that level;
      a chart no block names plots nothing. */
  lemma {:induction false} PlottedIsLastPositive(es: seq<Entry>, chart: string)
    ensures |Plotted(es, chart)| == |Labels|
    ensures forall i :: 0 <= i < |Labels| ==>
      match LastIndex(es, chart)
      case None => Plotted(es, chart)[i].None?
      case Some(k) =>
        && (Plotted(es, chart)[i].Some? <==> Values(es[k].levels)[i] > 0.0)
        && (Plotted(es, chart)[i].Some? ==> Plotted(es, chart)[i].value == Values(es[k].levels)[i])
  {
    RunIsLastMatch(es, chart, NoLevels);
  }

  /** A chart whose ticker no row names shows no level at all. */
  lemma {:induction false} UnlistedTickerPlotsNothing(es: seq<Entry>, chart: string)
    requires forall k :: 0 <= k < |es| ==> es[k].ticker != chart
    ensures forall i :: 0 <= i < |Plotted(es, chart)| ==> Plotted(es, chart)[i].None?
  {
    RunIsLastMatch(es, chart, NoLevels);
  }

  /** When a ticker appears on several rows, the last of them decides what
      its chart shows, whatever the rows before it said. */
  lemma {:induction false} LaterRowWins(xs: seq<Entry>, e: Entry, ys: seq<Entry>, chart: string)
    requires e.ticker == chart
    requires forall k :: 0 <= k < |ys| ==> ys[k].ticker != chart
    ensures Run(xs + [e] + ys, chart, NoLevels) == e.levels
  {
    var es := xs + [e] + ys;
    RunIsLastMatch(es, chart, NoLevels);
    assert es[|xs|] == e;
    assert forall j :: |xs| < j < |es| ==> es[j] == ys[j - |xs| - 1];
  }

  /** A level cell holding a placeholder (blank, an em dash, a double
      hyphen) is never plotted: it reads as 0, which the footer hides. */
  lemma {:induction false} PlaceholderNeverPlotted(s: string, nums: Numerics)
    requires IsPlaceholder(Trim(s))
    ensures Series(ParseLevel(Text(s), nums)).None?
  {
  }
}

=== FILE: scenarios.dfy ===
/**
 * A worked workbook: a legend sheet, and a sheet with a stock row, an
 * aliased futures row and two rows without a ticker. It shows the whole
 * chain on concrete cells: trimming, the decimal comma, the alias table,
 * absent columns reading as 0, and which rows and sheets are skipped.
 *
 * The only assumptions are how the decimal texts "310.5" and "230" round
 * to doubles.
 *
 * The cell lemmas take their texts as parameters pinned by a `requires`
 * rather than as literals, so that each proof covers one step of the
 * chain and the verifier does not evaluate the whole chain at once.
 */
module Scenarios {
  import opened Wrappers
  import opened JsText
  import opened Numbers
  import opened Helpers
  import opened Emitter
  import opened Seqs

  const SberRow: Row := map[TickerColumn := Text(" SBER "), Goal1Column := Text(" 310,5 "), CancelColumn := Text("—"), EntryColumn := Text("230/235")]
  const FuturesRow: Row := map[TickerColumn := Text("USDRUBF")]
  const BlankTickerRow: Row := map[TickerColumn := Text(""), Goal1Column := Text("100")]
  const NoTickerRow: Row := map[StopColumn := Num(Finite(5.0))]

  const Sample: Workbook := [
    Sheet(LegendSheet, [map[TickerColumn := Text("Тикер биржи")]]),
    Sheet("Акции", [SberRow, BlankTickerRow, FuturesRow, NoTickerRow])
  ]

  /** The sample yields two entries: the stock with its one goal, and the
      futures ticker under its chart alias with no levels. */
  lemma {:induction false} SampleEntries(nums: Numerics)
    requires nums.toDouble("310.5") == Some(310.5) && nums.toDouble("230") == Some(230.0)
    ensures WorkbookEntries(Sample, nums)
         == [Entry("SBER", Levels(310.5, 0.0, 0.0, 0.0, 230.0)), Entry("USDRUB.P", Levels(0.0, 0.0, 0.0, 0.0, 0.0))]
  {
    var rows := [SberRow, BlankTickerRow, FuturesRow, NoTickerRow];
    assert Sample == [Sample[0]] + [Sheet("Акции", rows)];
    WorkbookEntriesAppend([Sample[0]], [Sheet("Акции", rows)], nums);
    LegendContributesNothing([], Sample[0].rows, [], nums);
    assert [] + [Sample[0]] + [] == [Sample[0]];
    WorkbookEntriesSnoc([], Sheet("Акции", rows), nums);
    assert [] + [Sheet("Акции", rows)] == [Sheet("Акции", rows)];
    SampleRows(rows, nums);
  }

  /** The script of the sample: the header, the stock's block, the futures
      block, the footer. */
  lemma {:induction false} SampleScript(tpl: Template, nums: Numerics)
    requires nums.toDouble("310.5") == Some(310.5) && nums.toDouble("230") == Some(230.0)
    ensures Generate(Sample, tpl, nums)
         == tpl.header
            + Block(Entry("SBER", Levels(310.5, 0.0, 0.0, 0.0, 230.0)), nums)
            + Block(Entry("USDRUB.P", Levels(0.0, 0.0, 0.0, 0.0, 0.0)), nums)
            + tpl.footer
  {
    SampleEntries(nums);
    TwoBlocks(Entry("SBER", Levels(310.5, 0.0, 0.0, 0.0, 230.0)), Entry("USDRUB.P", Levels(0.0, 0.0, 0.0, 0.0, 0.0)), nums);
  }

  lemma {:induction false} TwoBlocks(e1: Entry, e2: Entry, nums: Numerics)
    ensures Blocks([e1, e2], nums) == Block(e1, nums) + Block(e2, nums)
  {
    BlocksSnoc([], e1, nums);
    assert [] + [e1] == [e1];
    BlocksSnoc([e1], e2, nums);
    assert [e1] + [e2] == [e1, e2];
  }

  lemma {:induction false} SampleRows(rows: seq<Row>, nums: Numerics)
    requires rows == [SberRow, BlankTickerRow, FuturesRow, NoTickerRow]
    requires nums.toDouble("310.5") == Some(310.5) && nums.toDouble("230") == Some(230.0)
    ensures SheetEntries(rows, nums)
         == [Entry("SBER", Levels(310.5, 0.0, 0.0, 0.0, 230.0)), Entry("USDRUB.P", Levels(0.0, 0.0, 0.0, 0.0, 0.0))]
  {
    SberEntry(nums);
    FuturesEntry(nums);
    RowsWithoutTicker();
    FourRows(rows, SberRow, BlankTickerRow, FuturesRow, NoTickerRow,
      Entry("SBER", Levels(310.5, 0.0, 0.0, 0.0, 230.0)), Entry("USDRUB.P", Levels(0.0, 0.0, 0.0, 0.0, 0.0)), nums);
  }

  lemma {:induction false} RowsWithoutTicker()
    ensures !Qualifies(BlankTickerRow) && !Qualifies(NoTickerRow)
  {
    DistinctColumns();
  }

  /** Four rows of which the first and the third name a ticker. */
  lemma {:induction false} FourRows(rows: seq<Row>, r1: Row, r2: Row, r3: Row, r4: Row, e1: Entry, e3: Entry, nums: Numerics)
    requires rows == [r1, r2, r3, r4]
    requires Qualifies(r1) && EntryOf(r1, nums) == e1 && !Qualifies(r2)
    requires Qualifies(r3) && EntryOf(r3, nums) == e3 && !Qualifies(r4)
    ensures SheetEntries(rows, nums) == [e1, e3]
  {
    SheetEntriesAreFilterMap(rows, nums);
    FilterMapFour(r1, r2, r3, r4, row => Qualifies(row), row => EntryOf(row, nums));
  }

  lemma {:induction false} FilterMapFour<T, U>(a: T, b: T, c: T, d: T, keep: T -> bool, f: T -> U)
    requires keep(a) && !keep(b) && keep(c) && !keep(d)
    ensures FilterMap([a, b, c, d], keep, f) == [f(a), f(c)]
  {
    assert [a][..0] == [];
    assert FilterMap([a], keep, f) == [f(a)];
    assert [a, b][..1] == [a];
    assert FilterMap([a, b], keep, f) == [f(a)];
    assert [a, b, c][..2] == [a, b];
    assert FilterMap([a, b, c], keep, f) == [f(a)] + [f(c)];
    assert [a, b, c, d][..3] == [a, b, c];
  }

  lemma {:induction false} SberEntry(nums: Numerics)
    requires nums.toDouble("310.5") == Some(310.5) && nums.toDouble("230") == Some(230.0)
    ensures Qualifies(SberRow)
    ensures EntryOf(SberRow, nums) == Entry("SBER", Levels(310.5, 0.0, 0.0, 0.0, 230.0))
  {
    SberLookups();
    SberTickerText(" SBER ", "SBER", nums);
    CommaCell(" 310,5 ", nums);
    DashCell("—", nums);
    SlashedCell("230/235", nums);
    EntryFromCells(SberRow, nums, "SBER", Levels(310.5, 0.0, 0.0, 0.0, 230.0));
  }

  lemma {:induction false} SberLookups()
    ensures Lookup(SberRow, TickerColumn) == Text(" SBER ")
    ensures Lookup(SberRow, Goal1Column) == Text(" 310,5 ")
    ensures Lookup(SberRow, CancelColumn) == Text("—")
    ensures Lookup(SberRow, Goal2Column) == Undefined
    ensures Lookup(SberRow, StopColumn) == Undefined
    ensures Lookup(SberRow, EntryColumn) == Text("230/235")
  {
    DistinctColumns();
  }

  lemma {:induction false} SberTickerText(s: string, t: string, nums: Numerics)
    requires s == " SBER " && t == "SBER"
    ensures TickerText(Trim(CellToString(Text(s), nums)), nums) == t
  {
    assert CellToString(Text(s), nums) == s;
    Padded(s, t);
    NotAliased(t, nums);
  }

  /** A short ticker is neither an alias nor the name of an inherited member. */
  lemma {:induction false} NotAliased(t: string, nums: Numerics)
    requires |t| < 7
    ensures TickerText(t, nums) == t
  {
  }

  lemma {:induction false} FuturesEntry(nums: Numerics)
    ensures Qualifies(FuturesRow)
    ensures EntryOf(FuturesRow, nums) == Entry("USDRUB.P", Levels(0.0, 0.0, 0.0, 0.0, 0.0))
  {
    FuturesLookups();
    FuturesTickerText("USDRUBF", "USDRUB.P", nums);
    EntryFromCells(FuturesRow, nums, "USDRUB.P", Levels(0.0, 0.0, 0.0, 0.0, 0.0));
  }

  lemma {:induction false} FuturesLookups()
    ensures Lookup(FuturesRow, TickerColumn) == Text("USDRUBF")
    ensures Lookup(FuturesRow, Goal1Column) == Undefined
    ensures Lookup(FuturesRow, Goal2Column) == Undefined
    ensures Lookup(FuturesRow, StopColumn) == Undefined
    ensures Lookup(FuturesRow, CancelColumn) == Undefined
    ensures Lookup(FuturesRow, EntryColumn) == Undefined
  {
    DistinctColumns();
  }

  lemma {:induction false} FuturesTickerText(s: string, t: string, nums: Numerics)
    requires s == "USDRUBF" && t == "USDRUB.P"
    ensures TickerText(Trim(CellToString(Text(s), nums)), nums) == t
  {
    assert CellToString(Text(s), nums) == s;
    NoBlanks(s);
    FuturesAlias(s, t, nums);
  }

  lemma {:induction false} FuturesAlias(s: string, t: string, nums: Numerics)
    requires s == "USDRUBF" && t == "USDRUB.P"
    ensures TickerText(s, nums) == t
  {
    assert s in Aliases && Aliases[s] == t;
  }

  /** The six column headers are distinct. */
  lemma {:induction false} DistinctColumns()
    ensures TickerColumn != Goal1Column && TickerColumn != Goal2Column && TickerColumn != StopColumn
    ensures TickerColumn != CancelColumn && TickerColumn != EntryColumn
    ensures Goal1Column != Goal2Column && Goal1Column != StopColumn && Goal1Column != CancelColumn
    ensures Goal1Column != EntryColumn && Goal2Column != StopColumn && Goal2Column != CancelColumn
    ensures Goal2Column != EntryColumn && StopColumn != CancelColumn && StopColumn != EntryColumn
    ensures CancelColumn != EntryColumn
  {
    assert Goal1Column[5] != Goal2Column[5];
    assert StopColumn[0] != EntryColumn[0];
    assert Goal1Column[0] != CancelColumn[0];
    assert Goal2Column[0] != CancelColumn[0];
  }

  /** The entry of a row, from what its cells read as. */
  lemma {:induction false} EntryFromCells(row: Row, nums: Numerics, t: string, l: Levels)
    requires TickerText(Trim(CellToString(Lookup(row, TickerColumn), nums)), nums) == t
    requires ParseLevel(Lookup(row, Goal1Column), nums) == l.goal1
    requires ParseLevel(Lookup(row, Goal2Column), nums) == l.goal2
    requires ParseLevel(Lookup(row, StopColumn), nums) == l.stop
    requires ParseLevel(Lookup(row, CancelColumn), nums) == l.cancel
    requires ParseLevel(Lookup(row, EntryColumn), nums) == l.entry
    ensures EntryOf(row, nums) == Entry(t, l)
  {
  }

  /** A text padded with one space on each side trims back to itself. */
  lemma {:induction false} Padded(s: string, t: string)
    requires s == " " + t + " "
    requires t != [] && !IsWhitespace(t[0]) && !IsWhitespace(t[|t| - 1])
    ensures Trim(s) == t
  {
    TrimSandwich(" ", t, " ");
  }

  lemma {:induction false} NoBlanks(s: string)
    requires s == "USDRUBF"
    ensures Trim(s) == s
  {
    assert s == "" + s + "";
    TrimSandwich("", s, "");
  }

  lemma {:induction false} DashCell(s: string, nums: Numerics)
    requires s == "—"
    ensures ParseLevel(Text(s), nums) == 0.0
  {
    assert s == "" + s + "";
    TrimSandwich("", s, "");
  }

  /** ` 310,5 ` reads as 310.5: trimmed, its comma made a point. */
  lemma {:induction false} CommaCell(s: string, nums: Numerics)
    requires s == " 310,5 "
    requires nums.toDouble("310.5") == Some(310.5)
    ensures ParseLevel(Text(s), nums) == 310.5
  {
    var t, u := s[1..6], "310.5";
    Padded(s, t);
    NoSlash(s);
    CommaToPoint(t, u);
    PointParses(u, nums);
    LevelFromSteps(s, t, u, 310.5, nums);
  }

  /** `230/235` reads as 230: only the text before the slash counts. */
  lemma {:induction false} SlashedCell(s: string, nums: Numerics)
    requires s == "230/235"
    requires nums.toDouble("230") == Some(230.0)
    ensures ParseLevel(Text(s), nums) == 230.0
  {
    SlashedText(s, "230", "235");
    PlainCell("230", nums);
    CutThenRead(s, "230", "235", 230.0, nums);
  }

  lemma {:induction false} SlashedText(s: string, a: string, b: string)
    requires s == "230/235" && a == "230" && b == "235"
    ensures s == a + "/" + b && '/' !in a
  {
  }

  /** A cell `a/b` reads as whatever the cell `a` reads as. */
  lemma {:induction false} CutThenRead(s: string, a: string, b: string, v: real, nums: Numerics)
    requires s == a + "/" + b && '/' !in a
    requires ParseLevel(Text(a), nums) == v
    ensures ParseLevel(Text(s), nums) == v
  {
    SlashCut(a, b, nums);
  }

  /** `230` reads as 230. */
  lemma {:induction false} PlainCell(s: string, nums: Numerics)
    requires s == "230" && nums.toDouble("230") == Some(230.0)
    ensures ParseLevel(Text(s), nums) == 230.0
  {
    PlainText(s);
    IntegerParses(s, nums);
    LevelFromSteps(s, s, s, 230.0, nums);
  }

  lemma {:induction false} PlainText(s: string)
    requires s == "230"
    ensures '/' !in s && Trim(s) == s && ReplaceFirst(s, ',', '.') == s
  {
    assert ',' !in s && '/' !in s;
    assert s == "" + s + "";
    TrimSandwich("", s, "");
  }

  lemma {:induction false} IntegerParses(s: string, nums: Numerics)
    requires s == "230" && nums.toDouble("230") == Some(230.0)
    ensures ParseFloat(s, nums) == Finite(230.0)
  {
    IntegerScans(s);
    NoLeadingBlank(s);
    assert !IsInfinityText(s);
  }

  lemma {:induction false} IntegerScans(s: string)
    requires s == "230"
    ensures ScanLiteral(s) == Some(s)
  {
    assert DigitRun(s, 3) == 0;
    assert MantissaEnd(s, 0) == 3 && ExponentLength(s, 3) == 0;
    assert !IsSign(s[0]);
    assert !StartsWithAt(s, 0, "Infinity");
    assert s[..3] == s;
  }

  lemma {:induction false} NoSlash(s: string)
    requires s == " 310,5 "
    ensures '/' !in s
  {
  }

  /** A text without a slash whose trimmed form, with its comma made a point,
      parses to a finite `v` reads as `v`. */
  lemma {:induction false} LevelFromSteps(s: string, t: string, u: string, v: real, nums: Numerics)
    requires '/' !in s && Trim(s) == t && ReplaceFirst(t, ',', '.') == u
    requires ParseFloat(u, nums) == Finite(v)
    ensures ParseLevel(Text(s), nums) == v
  {
    LevelWithoutSlash(s, nums);
  }

  lemma {:induction false} CommaToPoint(s: string, r: string)
    requires s == "310,5" && r == "310.5"
    ensures ReplaceFirst(s, ',', '.') == r
  {
    var b := BeforeFirst(s, ',');
    assert s[3] == ',';
    assert |b| == 3;
    assert r == s[..3] + ['.'] + s[4..];
  }

  lemma {:induction false} PointParses(s: string, nums: Numerics)
    requires s == "310.5" && nums.toDouble("310.5") == Some(310.5)
    ensures ParseFloat(s, nums) == Finite(310.5)
  {
    PointScans(s);
    assert !IsWhitespace(s[0]);
    assert TrimStart(s) == s;
    assert !IsInfinityText(s);
  }

  lemma {:induction false} PointScans(s: string)
    requires s == "310.5"
    ensures ScanLiteral(s) == Some(s)
  {
    assert DigitRun(s, 3) == 0;
    assert DigitRun(s, 5) == 0;
    assert MantissaEnd(s, 0) == 5 && ExponentLength(s, 5) == 0;
    assert !IsSign(s[0]);
    assert !StartsWithAt(s, 0, "Infinity");
    assert s[..5] == s;
  }
}

=== FILE: seqs.dfy ===
/**
 * Generic sequence operations behind the handler's array methods:
 * `filter` followed by `map`, and a `forEach` whose callback appends text.
 */
module Seqs {
  /** The texts `f` makes of the items, one after the other. */
  function ConcatMap<T>(xs: seq<T>, f: T -> string): string {
    if xs == [] then ""
    else ConcatMap(xs[..|xs| - 1], f) + f(xs[|xs| - 1])
  }

  /** `xs.forEach((x) => { out += f(x); })` starting from `prefix`. */
  method AppendEach<T>(prefix: string, xs: seq<T>, f: T -> string) returns (out: string)
    ensures out == prefix + ConcatMap(xs, f)
  {
    out := prefix;
    var j := 0;
    while j < |xs|
      invariant 0 <= j <= |xs|
      invariant out == prefix + ConcatMap(xs[..j], f)
    {
      assert xs[..j + 1][..j] == xs[..j];
      out := out + f(xs[j]);
      j := j + 1;
    }
    assert xs[..j] == xs;
  }

  /** The texts `f` makes of two runs of items are the two runs' texts, joined. */
  lemma {:induction false} ConcatMapAppend<T>(xs: seq<T>, ys: seq<T>, f: T -> string)
    ensures ConcatMap(xs + ys, f) == ConcatMap(xs, f) + ConcatMap(ys, f)
    decreases |ys|
  {
    if ys == [] {
      assert xs + ys == xs;
    } else {
      var init, last := ys[..|ys| - 1], ys[|ys| - 1];
      assert (xs + ys)[..|xs + ys| - 1] == xs + init;
      ConcatMapAppend(xs, init, f);
    }
  }

  /** The inner items of every item, one item after the other. */
  function Flatten<T, U>(xs: seq<T>, inner: T -> seq<U>): seq<U> {
    if xs == [] then []
    else Flatten(xs[..|xs| - 1], inner) + inner(xs[|xs| - 1])
  }

  lemma {:induction false} FlattenSnoc<T, U>(xs: seq<T>, x: T, inner: T -> seq<U>)
    ensures Flatten(xs + [x], inner) == Flatten(xs, inner) + inner(x)
  {
    assert (xs + [x])[..|xs|] == xs;
  }

  /** One more item adds the texts of its inner items when `keep` accepts
      it, and nothing otherwise. */
  lemma {:induction false} NestedSnoc<T, U>(xs: seq<T>, x: T, keep: T -> bool, inner: T -> seq<U>, f: U -> string)
    ensures ConcatMap(Flatten(Filter(xs + [x], keep), inner), f)
         == ConcatMap(Flatten(Filter(xs, keep), inner), f) + (if keep(x) then ConcatMap(inner(x), f) else "")
  {
    assert (xs + [x])[..|xs|] == xs;
    if keep(x) {
      FlattenSnoc(Filter(xs, keep), x, inner);
      ConcatMapAppend(Flatten(Filter(xs, keep), inner), inner(x), f);
    } else {
      assert Filter(xs, keep) + [] == Filter(xs, keep);
    }
  }

  /** `xs.forEach((x) => { inner(x).forEach((y) => { out += f(y); }); })`
      starting from `prefix`. */
  method AppendNested<T, U>(prefix: string, xs: seq<T>, inner: T -> seq<U>, f: U -> string) returns (out: string)
    ensures out == prefix + ConcatMap(Flatten(xs, inner), f)
  {
    out := prefix;
    var i := 0;
    while i < |xs|
      invariant 0 <= i <= |xs|
      invariant out == prefix + ConcatMap(Flatten(xs[..i], inner), f)
    {
      assert xs[..i + 1][..i] == xs[..i];
      ConcatMapAppend(Flatten(xs[..i], inner), inner(xs[i]), f);
      out := AppendEach(out, inner(xs[i]), f);
      i := i + 1;
    }
    assert xs[..i] == xs;
  }

  /** `xs.filter(keep)`. */
  function Filter<T>(xs: seq<T>, keep: T -> bool): (ys: seq<T>)
    ensures |ys| <= |xs|
  {
    if xs == [] then []
    else Filter(xs[..|xs| - 1], keep) + (if keep(xs[|xs| - 1]) then [xs[|xs| - 1]] else [])
  }

  /** `xs.filter(keep).map(f)`. */
  function FilterMap<T, U>(xs: seq<T>, keep: T -> bool, f: T -> U): (ys: seq<U>)
    ensures |ys| <= |xs|
  {
    if xs == [] then []
    else FilterMap(xs[..|xs| - 1], keep, f) + (if keep(xs[|xs| - 1]) then [f(xs[|xs| - 1])] else [])
  }

  /** Filtering and mapping two runs of items gives the two runs' results, joined. */
  lemma {:induction false} FilterMapAppend<T, U>(xs: seq<T>, ys: seq<T>, keep: T -> bool, f: T -> U)
    ensures FilterMap(xs + ys, keep, f) == FilterMap(xs, keep, f) + FilterMap(ys, keep, f)
    decreases |ys|
  {
    if ys == [] {
      assert xs + ys == xs;
    } else {
      var init, last := ys[..|ys| - 1], ys[|ys| - 1];
      assert (xs + ys)[..|xs + ys| - 1] == xs + init;
      FilterMapAppend(xs, init, keep, f);
    }
  }

  /** `ys` is `f` of exactly the items of `xs` that `keep` accepts, in their
      order in `xs`; `idx` holds the positions of those items. */
  ghost predicate Selects<T, U>(xs: seq<T>, keep: T -> bool, f: T -> U, idx: seq<nat>, ys: seq<U>) {
    && |idx| == |ys|
    && (forall k :: 0 <= k < |idx| ==> idx[k] < |xs| && keep(xs[idx[k]]) && ys[k] == f(xs[idx[k]]))
    && (forall k, l :: 0 <= k < l < |idx| ==> idx[k] < idx[l])
    && (forall i :: 0 <= i < |xs| && keep(xs[i]) ==> i in idx)
  }

  /** `FilterMap` keeps every accepted item, drops every other one, and
      keeps the order. */
  lemma {:induction false} FilterMapSelects<T, U>(xs: seq<T>, keep: T -> bool, f: T -> U) returns (idx: seq<nat>)
    ensures Selects(xs, keep, f, idx, FilterMap(xs, keep, f))
    decreases |xs|
  {
    if xs == [] {
      idx := [];
    } else {
      var n := |xs| - 1;
      var prev := FilterMapSelects(xs[..n], keep, f);
      assert xs[..n] + [xs[n]] == xs;
      SelectsSnoc(xs[..n], keep, f, prev, FilterMap(xs[..n], keep, f), xs[n]);
      idx := prev + (if keep(xs[n]) then [n] else []);
    }
  }

  lemma {:induction false} SelectsSnoc<T, U>(xs: seq<T>, keep: T -> bool, f: T -> U, idx: seq<nat>, ys: seq<U>, x: T)
    requires Selects(xs, keep, f, idx, ys)
    ensures Selects(xs + [x], keep, f, idx + (if keep(x) then [|xs|] else []), ys + (if keep(x) then [f(x)] else []))
  {
    var xs', idx', ys' := xs + [x], idx + (if keep(x) then [|xs|] else []), ys + (if keep(x) then [f(x)] else []);
    forall k | 0 <= k < |idx'|
      ensures idx'[k] < |xs'| && keep(xs'[idx'[k]]) && ys'[k] == f(xs'[idx'[k]])
    {
      if k < |idx| {
        assert idx'[k] == idx[k] && ys'[k] == ys[k] && xs'[idx[k]] == xs[idx[k]];
      }
    }
    forall k, l | 0 <= k < l < |idx'|
      ensures idx'[k] < idx'[l]
    {
      if l < |idx| {
        assert idx'[k] == idx[k] && idx'[l] == idx[l];
      } else {
        assert idx'[k] == idx[k] < |xs|;
      }
    }
    forall i | 0 <= i < |xs'| && keep(xs'[i])
      ensures i in idx'
    {
      if i < |xs| {
        assert xs'[i] == xs[i];
        assert i in idx;
      } else {
        assert idx'[|idx|] == i;
      }
    }
  }
}

=== FILE: wrappers.dfy ===
/** The optional-value datatype the rest of the model uses for "a value or nothing". */
module Wrappers {

  datatype Option<+T> = None | Some(value: T)
}
